=== FILE: README.md ===
# navex omnibox and popup: a Dafny model

navex is a browser extension that keeps a map from shortcut names to URLs.
Typing text after the extension's keyword in the address bar (the omnibox) does one of four things:

- it offers the stored shortcuts that match the text, ranked in four tiers;
- it offers to delete a shortcut (`name --delete`);
- it offers to rename a shortcut (`old --rename new`);
- it offers to save the current page under the text.

Picking a suggestion hands its content back to the extension. The delete, rename and save offers carry an action token, a search suggestion carries the plain shortcut name, and a no-match notice carries the typed text.
The popup page edits the same map with forms, an import and a clear-all button, and filters the list with a search box.

This project models the core of that behaviour as pure functions over an immutable map.

- `Store` (store.dfy): the map as a sequence of `(name, record)` entries with distinct names. The order of the sequence is the object's key-iteration order. It also holds the single-statement effects `obj[k] = v`, `delete obj[k]` and `{...a, ...b}`.
- `Text` (text.dfy): ECMAScript white space, `trim()`, ASCII lower-casing, `startsWith` and `includes`.
- `Words` (words.dfy): `split(/[\s\-_]+/)` and the word-prefix test.
- `Matcher` (matcher.dfy): the four match tiers, `findBestMatch`, and the bucket ranking loop of the suggestion listener.
- `Flags` (flags.dfy): the delete flag and the rename pattern. The two regular expressions are modelled exactly:
  - `\s+--delete\s*$` is a leftmost match that is cut off the text;
  - `^(.+?)\s+--rename\s+(.+)$` has a lazy group 1, greedy white-space runs with backtracking, and a `.` that stops at line terminators.
- `Tokens` (tokens.dfy): the `__DELETE__:`, `__RENAME__:` and `__SAVE__:` action tokens and their decoding with `split(':')` and `join(':')`.
- `Background` (background.dfy): the delete, rename and save-current-page commands, and the scheme check before navigating.
- `Omnibox` (omnibox.dfy): the two omnibox listeners. `Suggest` gives the suggestion list for the typed text. `Enter` gives the effect of the entered text.
- `Escape` (escape.dfy): `escapeXml` (a chain of five replacements) and `escapeHtml` (a single pass), with a decoder as their partner.
- `Popup` (popup.dfy): the popup's save, edit, delete, import, clear-all and the list search filter.
- `Results` (results.dfy): `Option` and `Result`.

Some behaviours of the code that are easy to misread:

- An empty query is a prefix of every name, so in the ranking every non-empty name lands in the starts-with bucket, not the contains bucket. Only the empty name is an exact match (`Matcher.EmptyQueryStartsWith`).
- The rename token decoder splits at the first colon, so an old name that holds a colon comes back cut short, and the rest of it is glued to the new name (`Tokens.RenameTokenColonInOldName`). Colons in the new name survive.
- The delete test is case-sensitive and needs a single space before `--delete` (`' --delete'`). The stripping regular expression is case-insensitive and accepts any white space. When the flag is not trailing, the test still fires and the operand is the whole trimmed text (`Flags.DeleteFlagNotTrailing`).
- A best match is used only when it is truthy. The empty name is falsy in JavaScript, so a command whose best match is the empty name is treated as finding nothing (`Matcher.MatchedShortcut`, `Omnibox.EnterEmptyMatchFindsNothing`). The empty name can be stored through an import, which does not check names.
- `typeof null` is `"object"`, so importing the JSON text `null` passes the format check and merges nothing (`Popup.ImportShortcuts`).
- The edit form deletes the old key before it assigns the new one. So the edited shortcut goes to the end of the key order, even when its name is unchanged. The exception is a new name that is already taken by another shortcut: that shortcut is overwritten in its place (`Popup.UpdateValid`).

## Model

| member | source | states |
|---|---|---|
| Text.Lower | background.js:71 | `toLowerCase` keeps the length and lower-cases each character on its own (ASCII letters only); lower-casing commutes with trimming by `Text.LowerTrim` |
| Text.Trim | background.js:23 | `trim()`: characterised by `Text.TrimSpec`, `Text.TrimmedFixpoint` and `Text.TrimIdempotent` |
| Text.TrimSpec | background.js:23 | `trim()` removes exactly the white space at both ends: the result is the slice between two all-white-space runs and has no white space at either end |
| Text.TrimmedFixpoint | background.js:135 | trimming leaves a string unchanged exactly when it has no boundary white space |
| Text.TrimIdempotent | background.js:50-51 | trimming twice is trimming once |
| Text.LowerTrim | popup.js:194 | lower-casing then trimming (the popup) equals trimming then lower-casing (the omnibox) |
| Words.SplitWords | background.js:97 | `split(/[\s\-_]+/)` always yields at least one piece; the word-prefix test over its pieces is characterised by `Words.WordPrefixIff`, `Words.SeparatorQueryNoWordPrefix` and `Words.EmptyQueryWordPrefix` |
| Words.WordPrefixIncludes | background.js:97-98 | a name one of whose words starts with the query contains the query |
| Words.SeparatorQueryNoWordPrefix | background.js:97-98 | a query holding a space, `-` or `_` is never the prefix of a word, since the split removes every separator |
| Words.EmptyQueryWordPrefix | background.js:97-98 | every name has a word that starts with the empty query |
| Words.WordPrefixIff | background.js:97-98 | a non-empty query is the prefix of some word exactly when it holds no space, `-` or `_` and occurs in the name at its start or right after a separator |
| Words.WordStartFound | background.js:97-98 | a separator-free query that occurs where a word starts is the prefix of some word of the split |
| Words.WordStartOfWord | background.js:97-98 | a query that some word of the split starts with occurs in the name at its start or right after a separator |
| Matcher.Classify | background.js:83-112 | the if/else chain of the suggestion loop: characterised by `Matcher.ClassifySpec` and `Matcher.BucketStep` |
| Matcher.ClassifySpec | background.js:83-112 | the if/else chain puts a name in the bucket of the best tier it passes, and drops it exactly when the lower-cased name does not contain the query |
| Matcher.BestTierUnique | background.js:83-112 | a name belongs to at most one tier |
| Matcher.PassesIncludes | background.js:83-112 | passing any tier means containing the query |
| Matcher.First | background.js:245-249 | one pass of `findBestMatch` finds nothing exactly when no name passes the tier; a found name is stored and passes |
| Matcher.FirstAt | background.js:245-249 | a pass returns the first name, in key order, that passes its tier |
| Matcher.FindBestMatch | background.js:241-275 | a best match is always a stored name |
| Matcher.BestMatchNoneIff | background.js:241-275 | `findBestMatch` returns null exactly when no lower-cased name contains the lower-cased query |
| Matcher.BestMatchPrefersExact | background.js:244-249 | the first name equal to the query up to letter case is returned, even when earlier names match by prefix |
| Matcher.BucketMembers | background.js:79-114 | a bucket holds exactly the stored names whose best tier is that bucket's |
| Matcher.BucketAppend | background.js:79-114 | bucketing a concatenation concatenates the buckets: the loop keeps key order inside each bucket |
| Matcher.BucketStep | background.js:79-114 | one loop iteration appends the name to the bucket its if/else chain selects and to no other |
| Matcher.RankNames | background.js:79-117 | the loop followed by the push gives the exact, starts-with, word-starts-with and contains buckets concatenated in that order |
| Matcher.RankedMembers | background.js:83-112 | a name is ranked exactly when its lower-cased form contains the query |
| Matcher.BucketsDisjoint | background.js:83-112 | no name sits in two buckets |
| Matcher.EmptyQueryStartsWith | background.js:89 | with an empty query, every non-empty name is in the starts-with bucket and only the empty name is exact |
| Matcher.FirstIsBucketHead | background.js:241-275 | when no name passes a better tier, a pass of `findBestMatch` finds the head of that tier's bucket |
| Matcher.RankedHeadIsBestMatch | background.js:117 | the ranking is empty exactly when `findBestMatch` finds nothing, and otherwise starts with its result |
| Matcher.EmptyBestMatch | background.js:241-275 | `findBestMatch` returns the empty name exactly when the query is empty and the empty name is stored |
| Matcher.MatchedShortcut | background.js:167-170 | a best match is acted on only when it is truthy: the test fails exactly when `findBestMatch` finds nothing or finds the empty name, and otherwise passes on its result |
| Flags.HasDeleteFlag | background.js:26 | the case-sensitive `includes(' --delete')` test: characterised by `Flags.DeleteFlagRoundTrip` and `Flags.DeleteFlagNotTrailing` |
| Flags.StripDeleteFlag | background.js:27 | the replacement of `\s+--delete\s*$`: characterised by `Flags.StripDeleteFlagSpec`, `Flags.StripDeleteLeftmost` and `Flags.DeleteMatchShape` |
| Flags.DeleteOperand | background.js:27 | the stripped text trimmed again: characterised by `Flags.DeleteFlagRoundTrip` and `Flags.DeleteFlagNotTrailing` |
| Flags.ParseRename | background.js:48 | the match of `^(.+?)\s+--rename\s+(.+)$`: characterised by `Flags.ParseRenameNone`, `Flags.ParseRenameSome` and `Flags.RenameFlagRoundTrip` |
| Flags.StripDeleteFlagSpec | background.js:27 | the replacement leaves the text unchanged exactly when `\s+--delete\s*$` matches nowhere; otherwise it cuts the text at the leftmost position where the pattern matches |
| Flags.DeleteMatchShape | background.js:27 | every match of the delete pattern ends its flag where the trailing white space starts, after white space reaching back to the match's start |
| Flags.StripDeleteLeftmost | background.js:27 | no position before the cut matches the delete pattern |
| Flags.DeleteFlagRoundTrip | background.js:26-28 | `name --delete` is seen as a delete command whose operand is `name`, for a non-empty name with no boundary white space |
| Flags.DeleteFlagNotTrailing | background.js:26-28 | when the pattern matches nowhere, the operand is the whole trimmed text |
| Flags.RenameGroupSpec | background.js:48 | the tail matcher succeeds exactly when `\s+--rename\s+(.+)$` matches the rest of the text, and then returns the group 2 of the greedy match, the shortest over all matches |
| Flags.BacktrackLongest | background.js:48 | backtracking the greedy white-space run picks the longest run that leaves a non-empty group 2 without line terminators |
| Flags.RenameTailForced | background.js:48 | in every match of the tail, the first run is all the leading white space and the second lies within the white space after the flag |
| Flags.LazyGroupSpec | background.js:48 | the lazy group 1 is the shortest prefix without line terminators after which the tail matches; when there is none, no legal split matches |
| Flags.ParseRenameNone | background.js:48-49 | the rename pattern fails exactly when no split into a legal group 1 and a matching tail exists |
| Flags.ParseRenameSome | background.js:48-51 | on a match, group 1 is the shortest legal prefix that is followed by a matching tail, and group 2 is that tail's group |
| Flags.LazyGroupFinds | background.js:48 | the lazy group stops at the first length whose tail matches |
| Flags.RenameFlagRoundTrip | background.js:48-51 | `old --rename new` parses into exactly `old` and `new` when `old` is trimmed and holds no `--rename`, `new` does not start with white space, and neither holds a line break |
| Flags.NoEarlyRenameTail | background.js:48 | no tail that starts inside such an old name matches the rename pattern |
| Tokens.EncodeDelete | background.js:33 | the delete token: decoded back by `Tokens.DeleteTokenRoundTrip` |
| Tokens.EncodeRename | background.js:56 | the rename token: decoded back by `Tokens.RenameTokenRoundTrip` when the old name has no colon, and wrongly otherwise (`Tokens.RenameTokenColonInOldName`) |
| Tokens.EncodeSave | background.js:122 | the save token: decoded back by `Tokens.SaveTokenRoundTrip` |
| Tokens.DecodeToken | background.js:134-156 | the token part of the selection handler: characterised by `Tokens.DeleteTokenRoundTrip`, `Tokens.RenameTokenRoundTrip`, `Tokens.SaveTokenRoundTrip` and `Tokens.RenameTokenSplitsAtFirstColon` |
| Tokens.JoinSplit | background.js:142-145 | joining the pieces of `split(c)` with `c` gives back the text |
| Tokens.SplitFirst | background.js:142-145 | the first piece of the split is the text before the first colon, and the rest joined again is the text after it |
| Tokens.RenameTokenSplitsAtFirstColon | background.js:141-149 | a rename token is split at the first colon after its prefix, and does nothing without a colon |
| Tokens.DeleteTokenRoundTrip | background.js:33 | decoding `__DELETE__:n` gives a delete of `n` when `n` has no boundary white space |
| Tokens.SaveTokenRoundTrip | background.js:122 | decoding `__SAVE__:n` gives a save of `n` when `n` has no boundary white space |
| Tokens.RenameTokenRoundTrip | background.js:56 | decoding `__RENAME__:o:n` gives a rename of `o` to `n` when `o` has no colon and neither has boundary white space; colons in `n` survive |
| Tokens.RenameTokenColonInOldName | background.js:142-145 | an old name with a colon is split wrongly: `a:b` renamed to `c` decodes as `a` renamed to `b:c` |
| Background.IsInternalUrl | background.js:285 | the `chrome://` and `chrome-extension://` test: a page it accepts is refused by `Background.SaveCurrentPage` |
| Background.HasHttpScheme | background.js:434 | the test `/^https?:\/\//i`: characterised by `Background.NormalizeUrlChanges` |
| Background.DeleteShortcut | background.js:342-344 | the delete fails exactly when the name is absent, with a not-found notice; otherwise the name is gone and every other key keeps its record |
| Background.DeleteValid | background.js:344 | deleting keeps names distinct and keeps the order of the other names |
| Background.DeleteTwice | background.js:342-371 | a second delete of the same name reports not found |
| Background.RenameShortcut | background.js:384-407 | a rename fails when the old name is absent or the new one is taken, with the matching notice; otherwise the new name holds the old record, the old name is gone, and every other key is unchanged |
| Background.RenameValid | background.js:405-407 | a rename keeps names distinct; the new name goes to the end of the key order |
| Background.RenameBack | background.js:376-429 | renaming A to B and then B to A succeeds and gives back the same contents: every name holds the record it held before |
| Background.RenameBackOrder | background.js:405-407 | after renaming back, the restored name sits at the end of the key order and the other names keep their order, so the original order is not restored |
| Background.SaveCurrentPage | background.js:278-308 | saving fails without an active tab or on a browser-internal page; otherwise the name holds the tab's URL and every other key is unchanged |
| Background.SaveValid | background.js:307-308 | saving keeps names distinct; a new name goes to the end of the key order |
| Background.NormalizeUrl | background.js:434-436 | the navigated URL always has an HTTP scheme, ends with the stored URL, and is the stored URL when that already has one |
| Background.NormalizeIdempotent | background.js:434-436 | normalising twice is normalising once |
| Background.NormalizeUrlChanges | background.js:434-436 | a URL is left alone exactly when it has an `http://` or `https://` scheme in any letter case; otherwise it grows by the seven characters of `http://` |
| Omnibox.Suggest | background.js:14-129 | the suggestion listener: characterised by `Omnibox.SuggestDeleteFlag`, `Omnibox.SuggestRenameFlag`, `Omnibox.SuggestSearch` and `Omnibox.SuggestHeadIsBestMatch` |
| Omnibox.SearchItems | background.js:79-117 | the ranked search suggestions: characterised by `Omnibox.SearchContents`, `Omnibox.NavigateLabelIffExact` and `Omnibox.FilterMembers` |
| Omnibox.SaveOffers | background.js:119-125 | the trailing save offer: characterised by `Omnibox.SuggestSearch`, `Omnibox.ExactFilterEmpty` and `Omnibox.SearchItemsNotSaveOffer` |
| Omnibox.SearchContents | background.js:79-117 | the search suggestions name exactly the ranked names, in ranking order |
| Omnibox.NavigateLabelIffExact | background.js:83-88 | a search suggestion reads "Navigate to" exactly when its name equals the query up to letter case |
| Omnibox.FilterMembers | background.js:79-114 | each listed entry is stored and its best tier is the one it is listed under |
| Omnibox.SuggestDeleteFlag | background.js:26-45 | with a delete flag there is one suggestion: the offer to delete the best match for the operand, or a notice that hands back the typed text |
| Omnibox.SuggestRenameFlag | background.js:47-68 | with a rename flag and no delete flag there is one suggestion: the offer to rename the best match for group 1 to the trimmed group 2, or a notice |
| Omnibox.SuggestSearch | background.js:70-125 | without flags the suggestions are the ranking of the trimmed, lower-cased text, followed by the save offer exactly when no name equals the text up to letter case and the text is not blank |
| Omnibox.ExactFilterEmpty | background.js:120 | the exact bucket is empty exactly when no name equals the query up to letter case |
| Omnibox.SearchItemsNotSaveOffer | background.js:117-125 | the ranked suggestions are never the save offer, so the save offer comes last |
| Omnibox.SuggestHeadIsBestMatch | background.js:79-117 | the first search suggestion exists exactly when `findBestMatch` finds a name, and it names that shortcut |
| Omnibox.Enter | background.js:132-238 | every navigation goes to a URL with an HTTP scheme |
| Omnibox.PickDeleteOffer | background.js:134-138 | picking a delete offer deletes that shortcut |
| Omnibox.PickRenameOffer | background.js:141-149 | picking a rename offer renames that shortcut when its name has no colon |
| Omnibox.PickSaveOffer | background.js:152-156 | picking the save offer saves the current page under the trimmed text |
| Omnibox.TypedDeleteAgrees | background.js:158-181 | for text that is already trimmed and is no token, and whose best match has no boundary white space, pressing Enter on a typed delete command does what picking its suggestion does; the conditions are needed because the suggestion listener trims the text and the Enter handler does not |
| Omnibox.TypedRenameAgrees | background.js:183-209 | for text that is already trimmed and is no token, and whose best match has no colon and no boundary white space, pressing Enter on a typed rename command does what picking its suggestion does |
| Omnibox.EnterEmptyMatchFindsNothing | background.js:158-209 | when the empty name is stored, a typed delete or rename whose operand is empty reports that nothing matches instead of acting on the empty name |
| Omnibox.EmptyNameNotDeleted | background.js:158-181 | with the empty name stored first, entering ` --delete` deletes nothing and reports that no shortcut matches |
| Omnibox.EnterPlainText | background.js:212-237 | plain text navigates exactly when some name contains it up to letter case, and otherwise saves the current page under it |
| Omnibox.EnterExactName | background.js:220-224 | a stored name typed exactly navigates to its own URL |
| Omnibox.EnterFollowsFirstSuggestion | background.js:226-232 | text that is no stored name navigates to the shortcut the first suggestion names |
| Escape.EscapeXml | background.js:4-11 | the chain of five replacements: characterised by `Escape.EscapeXmlIsSinglePass`, `Escape.EscapeXmlNoMarkup` and `Escape.EscapeXmlRoundTrip` |
| Escape.EscapeHtml | popup.js:425-434 | the single-pass escaper: characterised by `Escape.EscapeHtmlNoMarkup`, `Escape.EscapeHtmlAppend`, `Escape.EscapeHtmlRoundTrip` and `Escape.EscapersAgree` |
| Escape.ReplaceAll | background.js:6-10 | a global replacement leaves no target character when the replacement holds none, and changes nothing when there is none |
| Escape.ReplaceAllAppend | background.js:6-10 | replacing in a concatenation is replacing in each part |
| Escape.EscapeXmlIsSinglePass | background.js:4-11 | the chain of five replacements, `&` first, equals one pass that maps each character to its entity |
| Escape.EscapeXmlNoMarkup | background.js:4-11 | the output of `escapeXml` holds no raw `<`, `>`, `"` or `'` |
| Escape.EscapeXmlRoundTrip | background.js:4-11 | decoding the five entities gives back the input of `escapeXml` |
| Escape.EscapeHtmlNoMarkup | popup.js:425-434 | the output of `escapeHtml` holds no raw `<`, `>`, `"` or `'` |
| Escape.EscapeHtmlAppend | popup.js:433 | each part of the input is escaped on its own, so no entity is escaped again |
| Escape.EscapeHtmlRoundTrip | popup.js:425-434 | decoding the five entities gives back the input of `escapeHtml` |
| Escape.EscapersAgree | popup.js:425-434 | the two escapers agree on text without an apostrophe |
| Store.Put | popup.js:241 | after `obj[k] = v`, `k` holds `v` and every other key is unchanged |
| Store.Remove | popup.js:392 | after `delete obj[k]`, `k` is absent and every other key is unchanged |
| Store.PutValid | popup.js:241 | assigning a key keeps names distinct |
| Store.PutNames | popup.js:241 | assigning a present key keeps the key order; a new key goes to the end |
| Store.RemoveNames | popup.js:392 | deleting a key removes it from the key order and keeps the order of the rest |
| Store.Merge | popup.js:119-122 | the spread `{...a, ...b}`: characterised by `Store.MergeSpec` |
| Store.MergeSpec | popup.js:119-122 | after `{...a, ...b}` every key of `b` holds its value in `b` and every other key its value in `a`; names stay distinct |
| Popup.SaveShortcut | popup.js:209-241 | the save fails on an empty trimmed name, then on an empty trimmed URL, then on an invalid URL, in that order; otherwise the trimmed name holds the trimmed URL and nothing else changes |
| Popup.SaveAgreesWithOmnibox | popup.js:240-241 | saving from the popup writes the same record as saving the current page from the omnibox |
| Popup.SaveValid | popup.js:240-241 | saving keeps names distinct and stores a name without boundary white space |
| Popup.UpdateShortcut | popup.js:338-359 | an edit fails when the trimmed name or URL is empty or the URL is invalid; otherwise the new name holds the new URL with no other field, the old name is gone unless reused, and every other key is unchanged |
| Popup.UpdateValid | popup.js:356-359 | an edit keeps names distinct; the new name goes to the end of the key order unless it overwrites another shortcut, which keeps its place |
| Popup.UpdateSameName | popup.js:356-359 | an edit that keeps the name only replaces that shortcut's record |
| Popup.DeleteShortcut | popup.js:392 | the named key is gone, every other key is unchanged, and deleting an absent key changes nothing |
| Popup.DeleteAgreesWithOmnibox | popup.js:392 | where the popup and the omnibox both delete, they give the same map |
| Popup.ImportShortcuts | popup.js:104-109 | arrays and non-objects are refused with a format error; `null` is accepted and changes nothing |
| Popup.ImportSpec | popup.js:118-122 | an imported object wins on each of its keys, every other key keeps its value, and names stay distinct |
| Popup.ImportIdempotent | popup.js:118-122 | importing the same file twice is importing it once |
| Popup.ClearAll | popup.js:156 | clear-all leaves no shortcut |
| Popup.SearchTerm | popup.js:194 | the search term, lower-cased then trimmed: equal to the omnibox's trimmed, lower-cased query by `Text.LowerTrim` |
| Popup.Visible | popup.js:198-201 | the visibility test of one item: characterised by `Popup.VisibleItems`, `Popup.BlankSearchShowsAll` and `Popup.SuggestedIsVisible` |
| Popup.VisibleItems | popup.js:193-206 | an item stays visible exactly when its lower-cased name or URL contains the lower-cased, trimmed search term |
| Popup.BlankSearchShowsAll | popup.js:193-206 | a blank search shows every item |
| Popup.SuggestedIsVisible | popup.js:194-201 | every shortcut the omnibox ranks for a query stays visible when the same query is typed into the popup's search box |

## Left out

- Storage, tabs, notifications and omnibox registration: every `chrome.*` call and every `chrome.runtime.lastError` path. Each command is a function from the map it reads to the map it writes, or to the notice it would show.
- The active tab's query: the tab's URL is the `tab` parameter of `Background.SaveCurrentPage` and `Omnibox.Enter`.
- The disposition switch in `navigateToUrl` (current, new or background tab). Only the URL it navigates to is modelled.
- The HTML parser that reads the popup list back: it turns U+0000 into U+FFFD and CR or CRLF into LF, so a name holding those characters (an import can store one) is not read back from the markup unchanged. `Escape.EscapeHtmlRoundTrip` stops at the five entities.
- The DOM, `confirm` dialogs, `setTimeout`, the status messages, the file reader, the export download and `JSON.parse`. The result of `JSON.parse` is the `Popup.Parsed` datatype.
- The `URL` constructor behind `isValidUrl`: it is a parameter of `Popup.SaveShortcut` and `Popup.UpdateShortcut`.
- The `localeCompare` sort of the popup list and the list's markup. Of `displayShortcuts`, only the escaping of names and URLs is modelled, as `Escape.EscapeHtml`.
- Text.Lower: lower-cases ASCII letters only. Full Unicode `toLowerCase` is library behaviour outside the model. For the `/i` flags of the two regular expressions, which only compare against ASCII letters, this is exact.
- Strings are sequences of characters. UTF-16 code units and surrogate pairs are not modelled.
- Key order: the entry sequence is taken to be the object's iteration order. JavaScript puts integer-like keys first, and that is not modelled. Keys inherited from the object prototype are not modelled either.
- Shortcut records are `{url, favicon?}`. The legacy form, where a bare string stands for the URL, is not modelled. An imported object's values are taken to be such records.
- Suggestion descriptions are the `Omnibox.Label` datatype: which kind of line it is and the names it shows. The exact wording and the `<match>` markup are not modelled.
- The favicon fetch, the default favicon, the theme loader and dark mode hold no map logic.
- The count message after an import, and the default suggestion text of the omnibox.

=== FILE: background.dfy ===
/**
 The store commands of the background worker: delete, rename and save a
 shortcut, and the scheme check done before navigating. Each command reads the
 whole map and writes the whole map back; here it is a function from the old
 map to the new one, or to the notice the user sees instead.
 */
module Background {
  import opened Results
  import opened Text
  import opened Store

  /** Why a command leaves the store unchanged. */
  datatype StoreError =
    | NotFound(name: string)       // no shortcut has this exact name
    | NoMatch(query: string)       // no shortcut name matches this query
    | NameTaken(name: string)      // the rename target already exists
    | InternalPage(url: string)    // the active tab shows a browser page
    | NoActiveTab                  // no tab to take a URL from

  /** Removes the shortcut `name`; fails when there is none. */
  function DeleteShortcut(s: Shortcuts, name: string): (r: Result<Shortcuts, StoreError>)
    ensures r.Failure? <==> !Has(s, name)
    ensures r.Failure? ==> r.error == NotFound(name)
    ensures r.Success? ==> !Has(r.value, name)
                           && forall k :: k != name ==> Lookup(r.value, k) == Lookup(s, k)
  {
    if Has(s, name) then Success(Remove(s, name)) else Failure(NotFound(name))
  }

  /** Deleting keeps names distinct and keeps the order of the other names. */
  lemma DeleteValid(s: Shortcuts, name: string)
    requires Valid(s) && Has(s, name)
    ensures Valid(DeleteShortcut(s, name).value)
    ensures Names(DeleteShortcut(s, name).value) == RemoveAll(Names(s), name)
  {
    RemoveValid(s, name);
    RemoveNames(s, name);
  }

  /** A second delete of the same name finds nothing. */
  lemma DeleteTwice(s: Shortcuts, name: string)
    requires DeleteShortcut(s, name).Success?
    ensures DeleteShortcut(DeleteShortcut(s, name).value, name) == Failure(NotFound(name))
  {
  }

  /** Moves the record of `oldName` to `newName`. Fails when `oldName` is
      missing or `newName` is taken, which includes renaming to the same name. */
  function RenameShortcut(s: Shortcuts, oldName: string, newName: string): (r: Result<Shortcuts, StoreError>)
    ensures r.Failure? <==> !Has(s, oldName) || Has(s, newName)
    ensures r.Failure? ==> r.error == if !Has(s, oldName) then NotFound(oldName) else NameTaken(newName)
    ensures r.Success? ==> Lookup(r.value, newName) == Lookup(s, oldName) && !Has(r.value, oldName)
                           && forall k :: k != oldName && k != newName ==> Lookup(r.value, k) == Lookup(s, k)
  {
    if !Has(s, oldName) then Failure(NotFound(oldName))
    else if Has(s, newName) then Failure(NameTaken(newName))
    else Success(Remove(Put(s, newName, Lookup(s, oldName).value), oldName))
  }

  /** A rename keeps names distinct; the new name goes to the end and the
      others keep their order. */
  lemma RenameValid(s: Shortcuts, oldName: string, newName: string)
    requires Valid(s) && RenameShortcut(s, oldName, newName).Success?
    ensures Valid(RenameShortcut(s, oldName, newName).value)
    ensures Names(RenameShortcut(s, oldName, newName).value) == RemoveAll(Names(s), oldName) + [newName]
  {
    var v := Lookup(s, oldName).value;
    var t := Put(s, newName, v);
    assert RenameShortcut(s, oldName, newName).value == Remove(t, oldName);
    PutValid(s, newName, v);
    PutNames(s, newName, v);
    RemoveValid(t, oldName);
    RemoveNames(t, oldName);
    RenameNames(Names(s), Names(t), Names(Remove(t, oldName)), oldName, newName);
  }

  lemma RenameNames(ns: seq<string>, ts: seq<string>, rs: seq<string>, oldName: string, newName: string)
    requires oldName != newName && ts == ns + [newName] && rs == RemoveAll(ts, oldName)
    ensures rs == RemoveAll(ns, oldName) + [newName]
  {
    RemoveAllAppend(ns, [newName], oldName);
    assert RemoveAll([newName], oldName) == [newName];
  }

  lemma {:induction false} RemoveAllAppend(a: seq<string>, b: seq<string>, k: string)
    ensures RemoveAll(a + b, k) == RemoveAll(a, k) + RemoveAll(b, k)
  {
    if a == [] {
      assert a + b == b;
    } else {
      assert (a + b)[1..] == a[1..] + b;
      RemoveAllAppend(a[1..], b, k);
    }
  }

  /** Renaming back restores the contents of the store: every name holds the
      record it held before. The key order is not restored (`RenameBackOrder`). */
  lemma RenameBack(s: Shortcuts, a: string, b: string)
    requires RenameShortcut(s, a, b).Success?
    ensures RenameShortcut(RenameShortcut(s, a, b).value, b, a).Success?
    ensures SameContents(RenameShortcut(RenameShortcut(s, a, b).value, b, a).value, s)
  {
  }

  /** After renaming back, the restored name sits at the end of the key order
      and the other names keep their order. */
  lemma RenameBackOrder(s: Shortcuts, a: string, b: string)
    requires Valid(s) && RenameShortcut(s, a, b).Success?
    ensures Names(RenameShortcut(RenameShortcut(s, a, b).value, b, a).value) == RemoveAll(Names(s), a) + [a]
  {
    var r := RenameShortcut(s, a, b).value;
    RenameValid(s, a, b);
    RenameBack(s, a, b);
    RenameValid(r, b, a);
    assert b !in Names(s) by { assert !Has(s, b); }
    DropAppended(Names(s), a, b);
  }

  /** Dropping `b` again after appending it to a list free of `b`. */
  lemma DropAppended(ns: seq<string>, a: string, b: string)
    requires b !in ns
    ensures RemoveAll(RemoveAll(ns, a) + [b], b) == RemoveAll(ns, a)
  {
    RemoveAllAppend(RemoveAll(ns, a), [b], b);
    assert RemoveAll([b], b) == [] by { assert [b][1..] == []; }
    RemoveAllSubset(ns, a, b);
    RemoveAllAbsent(RemoveAll(ns, a), b);
  }

  /** The URL schemes the browser does not let a shortcut point at. */
  predicate IsInternalUrl(url: string) {
    StartsWith(url, "chrome://") || StartsWith(url, "chrome-extension://")
  }

  /** Saves the active tab's URL under `name`, replacing any shortcut of that
      name. `tab` is the URL of the active tab, if there is one. The saved
      record has no favicon. */
  function SaveCurrentPage(s: Shortcuts, name: string, tab: Option<string>): (r: Result<Shortcuts, StoreError>)
    ensures tab.None? ==> r == Failure(NoActiveTab)
    ensures tab.Some? && IsInternalUrl(tab.value) ==> r == Failure(InternalPage(tab.value))
    ensures r.Success? <==> tab.Some? && !IsInternalUrl(tab.value)
    ensures r.Success? ==> Lookup(r.value, name) == Some(Record(tab.value, None))
                           && forall k :: k != name ==> Lookup(r.value, k) == Lookup(s, k)
  {
    match tab
    case None => Failure(NoActiveTab)
    case Some(url) =>
      if IsInternalUrl(url) then Failure(InternalPage(url))
      else Success(Put(s, name, Record(url, None)))
  }

  /** Saving keeps names distinct; a new name goes to the end. */
  lemma SaveValid(s: Shortcuts, name: string, url: string)
    requires Valid(s) && !IsInternalUrl(url)
    ensures Valid(SaveCurrentPage(s, name, Some(url)).value)
    ensures Names(SaveCurrentPage(s, name, Some(url)).value)
            == if Has(s, name) then Names(s) else Names(s) + [name]
  {
    PutValid(s, name, Record(url, None));
    PutNames(s, name, Record(url, None));
  }

  /** An `http://` or `https://` scheme, in any letter case. */
  predicate HasHttpScheme(url: string) {
    StartsWith(Lower(url), "http://") || StartsWith(Lower(url), "https://")
  }

  /** The URL navigated to: `http://` is put in front of a URL without an HTTP
      scheme. */
  function NormalizeUrl(url: string): (r: string)
    ensures HasHttpScheme(r)
    ensures HasHttpScheme(url) ==> r == url
    ensures |url| <= |r| && r[|r| - |url|..] == url
    ensures !HasHttpScheme(url) ==> |r| == |url| + 7 && r[..7] == "http://"
  {
    if HasHttpScheme(url) then url
    else
      var r := "http://" + url;
      assert Lower(r)[..7] == Lower(r[..7]) by { LowerSlice(r, 0, 7); }
      assert r[..7] == "http://";
      r
  }

  /** Normalising twice is normalising once. */
  lemma NormalizeIdempotent(url: string)
    ensures NormalizeUrl(NormalizeUrl(url)) == NormalizeUrl(url)
  {
  }

  /** The scheme check is the whole decision: a URL is left as it is exactly
      when it has an HTTP scheme, and otherwise grows by the 7 characters of
      `http://`. */
  lemma NormalizeUrlChanges(url: string)
    ensures NormalizeUrl(url) == url <==> HasHttpScheme(url)
    ensures !HasHttpScheme(url) ==> |NormalizeUrl(url)| == |url| + 7
  {
  }
}

=== FILE: escape.dfy ===
/**
 Escaping of text put into markup: `escapeXml` for omnibox descriptions, a
 chain of five global replacements with `&` first, and `escapeHtml` for the
 popup list, one pass over the characters with a lookup table.
 */
module Escape {
  import opened Text

  /** `s.replace(/c/g, rep)`: every `c` replaced by `rep`. */
  function ReplaceAll(s: string, c: char, rep: string): (r: string)
    ensures c !in rep ==> c !in r
    ensures c !in s ==> r == s
  {
    if s == [] then []
    else (if s[0] == c then rep else [s[0]]) + ReplaceAll(s[1..], c, rep)
  }

  lemma {:induction false} ReplaceAllAppend(a: string, b: string, c: char, rep: string)
    ensures ReplaceAll(a + b, c, rep) == ReplaceAll(a, c, rep) + ReplaceAll(b, c, rep)
  {
    if a == [] {
      assert a + b == b;
    } else {
      TailOfAppend(a, b);
      ReplaceAllAppend(a[1..], b, c, rep);
      AppendAssoc(if a[0] == c then rep else [a[0]], ReplaceAll(a[1..], c, rep), ReplaceAll(b, c, rep));
    }
  }

  /** The five replacements of `escapeXml`, in source order. */
  function EscapeXml(s: string): string {
    ReplaceAll(ReplaceAll(ReplaceAll(ReplaceAll(ReplaceAll(
      s, '&', "&amp;"), '<', "&lt;"), '>', "&gt;"), '"', "&quot;"), '\'', "&apos;")
  }

  /** The XML entity for one character, or the character itself. */
  function XmlEntity(c: char): string {
    match c
    case '&' => "&amp;"
    case '<' => "&lt;"
    case '>' => "&gt;"
    case '"' => "&quot;"
    case '\'' => "&apos;"
    case _ => [c]
  }

  /** The HTML entity for one character, as in the popup's table. */
  function HtmlEntity(c: char): string {
    if c == '\'' then "&#039;" else XmlEntity(c)
  }

  /** A single pass that replaces each character by `entity(c)`. */
  function EscapeEach(s: string, html: bool): string {
    if s == [] then []
    else (if html then HtmlEntity(s[0]) else XmlEntity(s[0])) + EscapeEach(s[1..], html)
  }

  lemma {:induction false} EscapeEachAppend(a: string, b: string, html: bool)
    ensures EscapeEach(a + b, html) == EscapeEach(a, html) + EscapeEach(b, html)
  {
    if a == [] {
      EscapeEachNil(b, html);
    } else {
      EscapeEachAppend(a[1..], b, html);
      EscapeEachCons(a, b, html);
    }
  }

  /** `escapeHtml`: one pass, each character replaced independently. */
  function EscapeHtml(s: string): string {
    EscapeEach(s, true)
  }

  /** Each part of the input is escaped on its own: no character's entity is
      escaped again. */
  lemma EscapeEachNil(b: string, html: bool)
    ensures EscapeEach([] + b, html) == EscapeEach([], html) + EscapeEach(b, html)
  {
    assert [] + b == b;
  }

  /** The step of `EscapeEachAppend`: escaping distributes over `a + b` when it does over its tail. */
  lemma EscapeEachCons(a: string, b: string, html: bool)
    requires a != []
    requires EscapeEach(a[1..] + b, html) == EscapeEach(a[1..], html) + EscapeEach(b, html)
    ensures EscapeEach(a + b, html) == EscapeEach(a, html) + EscapeEach(b, html)
  {
    var e := if html then HtmlEntity(a[0]) else XmlEntity(a[0]);
    TailOfAppend(a, b);
    EscapeEachUnfold(a + b, html);
    EscapeEachUnfold(a, html);
    AppendAssoc(e, EscapeEach(a[1..], html), EscapeEach(b, html));
  }

  lemma EscapeEachUnfold(s: string, html: bool)
    requires s != []
    ensures EscapeEach(s, html) == (if html then HtmlEntity(s[0]) else XmlEntity(s[0])) + EscapeEach(s[1..], html)
  {
  }

  lemma TailOfAppend(a: string, b: string)
    requires a != []
    ensures (a + b)[0] == a[0] && (a + b)[1..] == a[1..] + b
  {
  }

  lemma AppendAssoc(x: string, y: string, z: string)
    ensures x + (y + z) == (x + y) + z
  {
  }

  lemma EscapeHtmlAppend(a: string, b: string)
    ensures EscapeHtml(a + b) == EscapeHtml(a) + EscapeHtml(b)
  {
    EscapeEachAppend(a, b, true);
  }

  /** Escaping one character with the chain of replacements gives its entity:
      `&` goes first, so no later replacement touches an entity already made. */
  lemma ReplaceOne(c: char, x: char, rep: string)
    ensures ReplaceAll([c], x, rep) == if c == x then rep else [c]
  {
    assert [c][1..] == [];
  }

  lemma EscapeXmlChar(c: char)
    ensures EscapeXml([c]) == XmlEntity(c)
  {
    ReplaceOne(c, '&', "&amp;");
    if c == '&' {
      assert '<' !in "&amp;" && '>' !in "&amp;" && '"' !in "&amp;" && '\'' !in "&amp;";
    } else {
      ReplaceOne(c, '<', "&lt;");
      if c == '<' {
        assert '>' !in "&lt;" && '"' !in "&lt;" && '\'' !in "&lt;";
      } else {
        ReplaceOne(c, '>', "&gt;");
        if c == '>' {
          assert '"' !in "&gt;" && '\'' !in "&gt;";
        } else {
          ReplaceOne(c, '"', "&quot;");
          if c == '"' {
            assert '\'' !in "&quot;";
          } else {
            ReplaceOne(c, '\'', "&apos;");
          }
        }
      }
    }
  }

  /** The chain of five replacements is the single pass over the characters:
      since `&` is replaced first, no later step meets an `&` of an entity made
      before it, so no entity is escaped twice. */
  lemma {:induction false} EscapeXmlIsSinglePass(s: string)
    ensures EscapeXml(s) == EscapeEach(s, false)
  {
    if s != [] {
      EscapeXmlIsSinglePass(s[1..]);
      var (a, b) := ([s[0]], s[1..]);
      assert s == a + b;
      var r1 := ReplaceAll(s, '&', "&amp;");
      ReplaceAllAppend(a, b, '&', "&amp;");
      var (a1, b1) := (ReplaceAll(a, '&', "&amp;"), ReplaceAll(b, '&', "&amp;"));
      ReplaceAllAppend(a1, b1, '<', "&lt;");
      var (a2, b2) := (ReplaceAll(a1, '<', "&lt;"), ReplaceAll(b1, '<', "&lt;"));
      ReplaceAllAppend(a2, b2, '>', "&gt;");
      var (a3, b3) := (ReplaceAll(a2, '>', "&gt;"), ReplaceAll(b2, '>', "&gt;"));
      ReplaceAllAppend(a3, b3, '"', "&quot;");
      var (a4, b4) := (ReplaceAll(a3, '"', "&quot;"), ReplaceAll(b3, '"', "&quot;"));
      ReplaceAllAppend(a4, b4, '\'', "&apos;");
      EscapeXmlChar(s[0]);
    }
  }

  /** No markup character survives the single pass. */
  lemma {:induction false} EscapeEachNoMarkup(s: string, html: bool)
    ensures var r := EscapeEach(s, html); '<' !in r && '>' !in r && '"' !in r && '\'' !in r
  {
    if s != [] {
      EscapeEachNoMarkup(s[1..], html);
      EntityNoMarkup(s[0], html);
    }
  }

  lemma EntityNoMarkup(c: char, html: bool)
    ensures var e := if html then HtmlEntity(c) else XmlEntity(c); '<' !in e && '>' !in e && '"' !in e && '\'' !in e
  {
    if c == '"' {
      assert XmlEntity(c) == "&quot;";
    } else if c == '\'' {
      assert XmlEntity(c) == "&apos;";
    }
  }

  /** `escapeXml` leaves no raw `<`, `>`, `"` or `'`. */
  lemma EscapeXmlNoMarkup(s: string)
    ensures var r := EscapeXml(s); '<' !in r && '>' !in r && '"' !in r && '\'' !in r
  {
    EscapeXmlIsSinglePass(s);
    EscapeEachNoMarkup(s, false);
  }

  /** `escapeHtml` leaves no raw `<`, `>`, `"` or `'`. */
  lemma EscapeHtmlNoMarkup(s: string)
    ensures var r := EscapeHtml(s); '<' !in r && '>' !in r && '"' !in r && '\'' !in r
  {
    EscapeEachNoMarkup(s, true);
  }

  /** The two escapers agree on text without an apostrophe. */
  lemma {:induction false} EscapersAgree(s: string)
    requires '\'' !in s
    ensures EscapeXml(s) == EscapeHtml(s)
  {
    EscapeXmlIsSinglePass(s);
    EscapeEachSame(s);
  }

  lemma {:induction false} EscapeEachSame(s: string)
    requires '\'' !in s
    ensures EscapeEach(s, false) == EscapeEach(s, true)
  {
    if s != [] {
      EscapeEachSame(s[1..]);
    }
  }

  /** Decoding the five entities (`&apos;` and `&#039;` both for the
      apostrophe), left to right; any other character stands for itself. */
  function Unescape(s: string): string {
    if s == [] then []
    else if StartsWith(s, "&amp;") then "&" + Unescape(s[5..])
    else if StartsWith(s, "&lt;") then "<" + Unescape(s[4..])
    else if StartsWith(s, "&gt;") then ">" + Unescape(s[4..])
    else if StartsWith(s, "&quot;") then "\"" + Unescape(s[6..])
    else if StartsWith(s, "&apos;") then "'" + Unescape(s[6..])
    else if StartsWith(s, "&#039;") then "'" + Unescape(s[6..])
    else [s[0]] + Unescape(s[1..])
  }

  /** Decoding an escaped character followed by anything decodes the character
      and then the rest. */
  lemma UnescapeStep(c: char, rest: string, html: bool)
    ensures Unescape((if html then HtmlEntity(c) else XmlEntity(c)) + rest) == [c] + Unescape(rest)
  {
    if c == '&' {
      UnescapeAmp(rest);
    } else if c == '<' {
      UnescapeEntityAfterAmp("&lt;", '<', rest);
    } else if c == '>' {
      UnescapeEntityAfterAmp("&gt;", '>', rest);
    } else if c == '"' {
      UnescapeEntityAfterAmp("&quot;", '"', rest);
    } else if c == '\'' && html {
      UnescapeEntityAfterAmp("&#039;", '\'', rest);
    } else if c == '\'' {
      UnescapeEntityAfterAmp("&apos;", '\'', rest);
    } else {
      UnescapePlain(c, rest);
    }
  }

  /** A prefix that differs from `p` at `i` is not `p`. */
  lemma DiffersAt(t: string, p: string, i: nat)
    requires i < |p| && i < |t| && t[i] != p[i]
    ensures !StartsWith(t, p)
  {
    if |p| <= |t| {
      assert t[..|p|][i] == t[i];
    }
  }

  lemma PrefixOfAppend(e: string, rest: string)
    ensures StartsWith(e + rest, e) && (e + rest)[|e|..] == rest
  {
    assert (e + rest)[..|e|] == e;
  }

  lemma UnescapeAmp(rest: string)
    ensures Unescape("&amp;" + rest) == "&" + Unescape(rest)
  {
    PrefixOfAppend("&amp;", rest);
  }

  /** An entity other than `&amp;` is told apart from the earlier ones in the
      decoding order by its second character (its third, for `&apos;` against
      `&amp;`). */
  lemma UnescapeEntityAfterAmp(e: string, c: char, rest: string)
    requires || (e == "&lt;" && c == '<') || (e == "&gt;" && c == '>') || (e == "&quot;" && c == '"')
             || (e == "&apos;" && c == '\'') || (e == "&#039;" && c == '\'')
    ensures Unescape(e + rest) == [c] + Unescape(rest)
  {
    var t := e + rest;
    PrefixOfAppend(e, rest);
    assert t[1] == e[1] && t[2] == e[2];
    DiffersAt(t, "&amp;", if e == "&apos;" then 2 else 1);
    if e != "&lt;" {
      DiffersAt(t, "&lt;", 1);
      if e != "&gt;" {
        DiffersAt(t, "&gt;", 1);
        if e != "&quot;" {
          DiffersAt(t, "&quot;", 1);
          if e != "&apos;" {
            DiffersAt(t, "&apos;", 1);
          }
        }
      }
    }
  }

  /** A character other than `&` stands for itself. */
  lemma UnescapePlain(c: char, rest: string)
    requires c != '&'
    ensures Unescape([c] + rest) == [c] + Unescape(rest)
  {
    var t := [c] + rest;
    PrefixOfAppend([c], rest);
    DiffersAt(t, "&amp;", 0);
    DiffersAt(t, "&lt;", 0);
    DiffersAt(t, "&gt;", 0);
    DiffersAt(t, "&quot;", 0);
    DiffersAt(t, "&apos;", 0);
    DiffersAt(t, "&#039;", 0);
  }

  /** Unescaping undoes the single pass. */
  lemma {:induction false} UnescapeEscapeEach(s: string, html: bool)
    ensures Unescape(EscapeEach(s, html)) == s
  {
    if s != [] {
      UnescapeEscapeEach(s[1..], html);
      UnescapeStep(s[0], EscapeEach(s[1..], html), html);
    }
  }

  /** Unescaping the five entities gives back the input of `escapeXml`. */
  lemma EscapeXmlRoundTrip(s: string)
    ensures Unescape(EscapeXml(s)) == s
  {
    EscapeXmlIsSinglePass(s);
    UnescapeEscapeEach(s, false);
  }

  /** Decoding the five entities gives back the input of `escapeHtml`. Whether
      the popup reads a name back unchanged from its markup also depends on the
      HTML parser, which is not part of this model. */
  lemma EscapeHtmlRoundTrip(s: string)
    ensures Unescape(EscapeHtml(s)) == s
  {
    UnescapeEscapeEach(s, true);
  }
}

=== FILE: flags.dfy ===
/**
 The `--delete` and `--rename` directives typed into the omnibox. The two
 regular expressions of the handlers are modelled by their matching semantics:
 `/\s+--delete\s*$/i` (removed by `replace`) and `/^(.+?)\s+--rename\s+(.+)$/i`.
 The `i` flag folds only ASCII letters here, which is what `Lower` does.
 */
module Flags {
  import opened Results
  import opened Text

  const DeleteFlag: string := "--delete"
  const RenameFlag: string := "--rename"

  /** `text.includes(' --delete')`: a case-sensitive test with one space. */
  predicate HasDeleteFlag(text: string) {
    Includes(text, " --delete")
  }

  /** `u` as a whole matches `\s+--delete\s*` with its white space run of length `a`. */
  predicate DeleteTailAt(u: string, a: nat) {
    1 <= a && a + 8 <= |u| && AllSpace(u[..a]) && Lower(u[a..a + 8]) == DeleteFlag
    && AllSpace(u[a + 8..])
  }

  /** The regular expression `\s+--delete\s*$` matches starting at the head of `u`. */
  ghost predicate DeleteTail(u: string) {
    exists a: nat :: DeleteTailAt(u, a)
  }

  /** The trimmed-right text ends with the flag, which follows white space. */
  predicate FlagEnds(s: string) {
    var body := TrimEnd(s);
    |body| > 8 && Lower(body[|body| - 8..]) == DeleteFlag && IsSpace(body[|body| - 9])
  }

  /** `s.replace(/\s+--delete\s*$/i, '')`: the leftmost match, which runs to the
      end of `s`, is cut off; without a match `s` is returned as it is. */
  function StripDeleteFlag(s: string): string {
    if FlagEnds(s) then
      var body := TrimEnd(s);
      TrimEnd(body[..|body| - 8])
    else s
  }

  /** The last character of the flag is a letter, hence not white space. */
  lemma FlagEndNotSpace(x: string)
    requires |x| == 8 && (Lower(x) == DeleteFlag || Lower(x) == RenameFlag)
    ensures !IsSpace(x[7]) && !IsSpace(x[0])
  {
    assert Lower(x)[7] == LowerChar(x[7]);
    assert Lower(x)[0] == LowerChar(x[0]);
  }

  /** Any match of the delete tail ends its flag exactly where the trailing
      white space of `s` starts. */
  lemma DeleteTailPosition(s: string, i: nat, a: nat)
    requires i <= |s| && DeleteTailAt(s[i..], a)
    ensures i + a + 8 == |TrimEnd(s)|
  {
    var e := |TrimEnd(s)|;
    var u := s[i..];
    assert u[a..a + 8] == s[i + a..i + a + 8];
    FlagEndNotSpace(s[i + a..i + a + 8]);
    assert !IsSpace(s[i + a + 7]);
    assert u[a + 8..] == s[i + a + 8..];
  }

  /** Every match sits right before the trailing white space of `s`, after a
      run of white space that reaches back to the match's start. */
  lemma DeleteMatchShape(s: string, i: nat)
    requires i <= |s| && DeleteTail(s[i..])
    ensures var body := TrimEnd(s); var e := |body|;
            e >= 8 && Lower(body[e - 8..]) == DeleteFlag
            && i < e - 8 && IsSpace(s[e - 9]) && AllSpace(s[i..e - 8])
  {
    var a: nat :| DeleteTailAt(s[i..], a);
    DeleteTailPosition(s, i, a);
    DeleteTailParts(s, i, a, |TrimEnd(s)|);
  }

  /** A match of the delete tail at `i` whose flag ends at `e`, read as slices
      of `s`. */
  lemma DeleteTailParts(s: string, i: nat, a: nat, e: nat)
    requires i <= |s| && DeleteTailAt(s[i..], a) && e == i + a + 8
    ensures e <= |s| && i < e - 8 && Lower(s[..e][e - 8..]) == DeleteFlag
    ensures IsSpace(s[e - 9]) && AllSpace(s[i..e - 8])
  {
    DropSlice(s, i, a, a + 8);
    DropSlice(s, i, 0, a);
    TakeSlice(s, e, e - 8);
    assert s[i..][..a][a - 1] == s[e - 9];
  }

  /** When the flag ends the trimmed text after white space, the replacement
      cuts `s` at a position where the pattern matches. */
  lemma StripDeleteMatchAt(s: string)
    requires FlagEnds(s)
    ensures var r := StripDeleteFlag(s);
            |r| < |TrimEnd(s)| - 8 && r == s[..|r|] && DeleteTail(s[|r|..])
            && (r == [] || !IsSpace(s[|r| - 1]))
  {
    var body := TrimEnd(s);
    var e := |body|;
    var pre := body[..e - 8];
    var r := TrimEnd(pre);
    var k := |r|;
    assert pre[|pre| - 1] == body[e - 9];
    assert k < |pre|;
    assert r == pre[..k] == s[..k];
    var a := e - 8 - k;
    assert s[k..][..a] == pre[k..];
    assert s[k..][a..a + 8] == body[e - 8..];
    assert s[k..][a + 8..] == s[e..];
    assert DeleteTailAt(s[k..], a);
  }

  /** No position before the cut matches. */
  lemma StripDeleteLeftmost(s: string, i: nat)
    requires FlagEnds(s)
    requires i < |StripDeleteFlag(s)|
    ensures !DeleteTail(s[i..])
  {
    StripDeleteMatchAt(s);
    var e := |TrimEnd(s)|;
    var k := |StripDeleteFlag(s)|;
    assert s[i..e - 8][k - 1 - i] == s[k - 1];
    assert !AllSpace(s[i..e - 8]);
    if DeleteTail(s[i..]) {
      DeleteMatchShape(s, i);
    }
  }

  /** The replacement removes exactly the leftmost match of `\s+--delete\s*$`:
      the result is unchanged precisely when nothing matches, and otherwise is the
      prefix of `s` before the first position where the pattern matches. */
  lemma StripDeleteFlagSpec(s: string)
    ensures StripDeleteFlag(s) == s <==> forall i :: 0 <= i <= |s| ==> !DeleteTail(s[i..])
    ensures var r := StripDeleteFlag(s);
            r != s ==> |r| < |s| && r == s[..|r|] && DeleteTail(s[|r|..])
                       && forall i :: 0 <= i < |r| ==> !DeleteTail(s[i..])
  {
    if FlagEnds(s) {
      StripDeleteMatchAt(s);
      forall i | 0 <= i < |StripDeleteFlag(s)| ensures !DeleteTail(s[i..]) {
        StripDeleteLeftmost(s, i);
      }
    } else {
      forall i | 0 <= i <= |s| ensures !DeleteTail(s[i..]) {
        if DeleteTail(s[i..]) {
          DeleteMatchShape(s, i);
        }
      }
    }
  }

  /** `u` as a whole matches `\s+--rename\s+(.+)` with runs of `a` and `b`
      white space characters. */
  predicate RenameTailAt(u: string, a: nat, b: nat) {
    1 <= a && 1 <= b && a + 8 + b < |u| && AllSpace(u[..a])
    && Lower(u[a..a + 8]) == RenameFlag && AllSpace(u[a + 8..a + 8 + b])
    && NoLineTerminator(u[a + 8 + b..])
  }

  ghost predicate RenameTail(u: string) {
    exists a: nat, b: nat :: RenameTailAt(u, a, b)
  }

  lemma SpacePrefixWithin(u: string, b: nat)
    requires b <= |u| && AllSpace(u[..b])
    ensures b <= LeadingSpace(u)
  {
  }

  /** The greedy `\s+` before `(.+)$`: the longest run `n <= m` that leaves a
      non-empty rest without line terminators. */
  function Backtrack(r: string, m: nat): (n: Option<nat>)
    requires 1 <= m <= |r|
    ensures n.Some? ==> 1 <= n.value <= m && n.value < |r| && NoLineTerminator(r[n.value..])
    decreases m
  {
    if m < |r| && NoLineTerminator(r[m..]) then Some(m)
    else if m == 1 then None
    else Backtrack(r, m - 1)
  }

  /** Group 2 of the rename pattern matched against all of `u`, if it matches. */
  function RenameGroup(u: string): Option<string> {
    var a := LeadingSpace(u);
    if a == 0 || |u| < a + 8 || Lower(u[a..a + 8]) != RenameFlag then None
    else
      var rest := u[a + 8..];
      var b := LeadingSpace(rest);
      if b == 0 then None
      else match Backtrack(rest, b)
        case None => None
        case Some(m) => Some(rest[m..])
  }

  /** A suffix of a string without line terminators has none either. */
  lemma NoLineTerminatorSuffix(r: string, n: nat, n': nat)
    requires n <= n' <= |r| && NoLineTerminator(r[n..])
    ensures NoLineTerminator(r[n'..])
  {
    forall i | 0 <= i < |r[n'..]| ensures !IsLineTerminator(r[n'..][i]) {
      assert r[n'..][i] == r[n..][i + n' - n];
    }
  }

  /** Backtracking finds the longest admissible run: every longer one leaves a
      rest that is empty or holds a line terminator. */
  lemma {:induction false} BacktrackLongest(r: string, m: nat, n': nat)
    requires 1 <= n' <= m <= |r| && n' < |r| && NoLineTerminator(r[n'..])
    ensures Backtrack(r, m).Some? && n' <= Backtrack(r, m).value
    decreases m
  {
    if !(m < |r| && NoLineTerminator(r[m..])) {
      if m == n' {
      } else {
        BacktrackLongest(r, m - 1, n');
      }
    }
  }

  /** In every match the first run is all of the leading white space and the
      second run lies within the white space after the flag. */
  lemma RenameTailForced(u: string, a: nat, b: nat)
    requires RenameTailAt(u, a, b)
    ensures a == LeadingSpace(u)
    ensures b <= LeadingSpace(u[a + 8..]) && b < |u[a + 8..]|
    ensures NoLineTerminator(u[a + 8..][b..])
  {
    FlagEndNotSpace(u[a..a + 8]);
    assert u[a..a + 8][0] == u[a];
    LeadingSpaceUnique(u, a);
    var rest := u[a + 8..];
    assert rest[..b] == u[a + 8..a + 8 + b];
    SpacePrefixWithin(rest, b);
    assert rest[b..] == u[a + 8 + b..];
  }

  /** The rename tail matcher is exact and greedy: it succeeds precisely when the
      pattern matches, and then returns the shortest group 2 over all matches. */
  lemma RenameGroupSpec(u: string)
    ensures RenameGroup(u).Some? <==> RenameTail(u)
    ensures RenameGroup(u).Some? ==>
              (exists a: nat, b: nat :: RenameTailAt(u, a, b) && RenameGroup(u).value == u[a + 8 + b..])
              && forall a: nat, b: nat :: RenameTailAt(u, a, b) ==> |RenameGroup(u).value| <= |u| - (a + 8 + b)
  {
    if RenameGroup(u).Some? {
      var a, b := RenameGroupWitness(u);
    }
    forall a': nat, b': nat | RenameTailAt(u, a', b')
      ensures RenameGroup(u).Some? && |RenameGroup(u).value| <= |u| - (a' + 8 + b')
    {
      RenameGroupGreedy(u, a', b');
    }
  }

  /** A result of the matcher comes from a match of the pattern. */
  lemma RenameGroupWitness(u: string) returns (a: nat, m: nat)
    requires RenameGroup(u).Some?
    ensures RenameTailAt(u, a, m) && RenameGroup(u).value == u[a + 8 + m..]
  {
    a := LeadingSpace(u);
    var rest := u[a + 8..];
    var b := LeadingSpace(rest);
    m := RenameGroupUnfold(u);
    RenameTailFromParts(u, a, b, m);
  }

  lemma RenameTailFromParts(u: string, a: nat, b: nat, m: nat)
    requires 1 <= a && a + 8 <= |u| && AllSpace(u[..a]) && Lower(u[a..a + 8]) == RenameFlag
    requires 1 <= m <= b <= |u| - (a + 8) && AllSpace(u[a + 8..][..b])
    requires m < |u[a + 8..]| && NoLineTerminator(u[a + 8..][m..])
    ensures RenameTailAt(u, a, m) && u[a + 8..][m..] == u[a + 8 + m..]
  {
    DropSlice(u, a + 8, m, m);
    SpacePrefix(u[a + 8..], b, m);
  }

  /** The steps of a successful match: leading white space, the flag, white
      space, and the backtracked split point `m` after the flag. */
  lemma RenameGroupUnfold(u: string) returns (m: nat)
    requires RenameGroup(u).Some?
    ensures var a := LeadingSpace(u); var rest := u[a + 8..];
            a != 0 && a + 8 <= |u| && Lower(u[a..a + 8]) == RenameFlag
            && LeadingSpace(rest) != 0 && Backtrack(rest, LeadingSpace(rest)) == Some(m)
            && RenameGroup(u) == Some(rest[m..])
  {
    var a := LeadingSpace(u);
    var rest := u[a + 8..];
    m := Backtrack(rest, LeadingSpace(rest)).value;
  }

  lemma SpacePrefix(x: string, b: nat, m: nat)
    requires m <= b <= |x| && AllSpace(x[..b])
    ensures AllSpace(x[..m])
  {
    forall i | 0 <= i < m ensures IsSpace(x[..m][i]) {
      assert x[..b][i] == x[i];
    }
  }

  /** Every match of the pattern is found, with a group 2 no longer than the
      match's own. */
  lemma RenameGroupGreedy(u: string, a': nat, b': nat)
    requires RenameTailAt(u, a', b')
    ensures RenameGroup(u).Some? && |RenameGroup(u).value| <= |u| - (a' + 8 + b')
  {
    RenameTailForced(u, a', b');
    var rest := u[a' + 8..];
    var b := LeadingSpace(rest);
    BacktrackLongest(rest, b, b');
    RenameGroupFold(u, a', b, Backtrack(rest, b).value);
  }

  /** The matcher succeeds when its steps do. */
  lemma RenameGroupFold(u: string, a: nat, b: nat, m: nat)
    requires a == LeadingSpace(u) && a != 0 && a + 8 <= |u| && Lower(u[a..a + 8]) == RenameFlag
    requires b == LeadingSpace(u[a + 8..]) && b != 0 && Backtrack(u[a + 8..], b) == Some(m)
    ensures RenameGroup(u) == Some(u[a + 8..][m..])
  {
    var rest := u[a + 8..];
    assert !(a == 0 || |u| < a + 8 || Lower(u[a..a + 8]) != RenameFlag);
    assert RenameGroup(u) == (match Backtrack(rest, b) case None => None case Some(m) => Some(rest[m..]));
  }

  /** `text.match(/^(.+?)\s+--rename\s+(.+)$/i)`: group 1 is lazy, so the
      shortest prefix (free of line terminators) after which the tail matches. */
  function ParseRename(text: string): Option<(string, string)> {
    LazyGroup(text, 1, RenameGroup)
  }

  /** The lazy `(.+?)` in front of a pattern `tail` that yields group 2: the
      shortest group 1, of length `k` or more and without line terminators, after
      which `tail` matches the rest of the text. */
  function LazyGroup(text: string, k: nat, tail: string -> Option<string>): Option<(string, string)>
    requires 1 <= k
    decreases |text| - k
  {
    if k > |text| || IsLineTerminator(text[k - 1]) then None
    else match tail(text[k..])
      case Some(g2) => Some((text[..k], g2))
      case None => LazyGroup(text, k + 1, tail)
  }

  /** `g1` is a legal group 1 of length `k`: non-empty, no line terminator. */
  predicate GroupOneAt(text: string, k: nat) {
    1 <= k <= |text| && NoLineTerminator(text[..k])
  }

  lemma {:induction false} LazyGroupSpec(text: string, k: nat, tail: string -> Option<string>)
    requires 1 <= k <= |text| + 1 && NoLineTerminator(text[..k - 1])
    requires forall j :: 1 <= j < k ==> tail(text[j..]).None?
    ensures LazyGroup(text, k, tail).None? ==>
              forall j: nat :: GroupOneAt(text, j) ==> tail(text[j..]).None?
    ensures LazyGroup(text, k, tail).Some? ==> var (g1, g2) := LazyGroup(text, k, tail).value;
              GroupOneAt(text, |g1|) && g1 == text[..|g1|]
              && tail(text[|g1|..]) == Some(g2)
              && forall j :: 1 <= j < |g1| ==> tail(text[j..]).None?
    decreases |text| - k
  {
    if k > |text| {
    } else if IsLineTerminator(text[k - 1]) {
      forall j: nat | k <= j <= |text| ensures !NoLineTerminator(text[..j]) {
        assert text[..j][k - 1] == text[k - 1];
      }
    } else {
      assert text[..k] == text[..k - 1] + [text[k - 1]];
      if tail(text[k..]).None? {
        LazyGroupSpec(text, k + 1, tail);
      }
    }
  }

  /** The rename pattern fails exactly when no split of the text into a
      group 1 and a matching tail exists. */
  lemma ParseRenameNone(text: string)
    ensures ParseRename(text).None? <==>
              forall k: nat :: GroupOneAt(text, k) ==> !RenameTail(text[k..])
  {
    LazyGroupSpec(text, 1, RenameGroup);
    forall k: nat | GroupOneAt(text, k) ensures RenameGroup(text[k..]).Some? <==> RenameTail(text[k..]) {
      RenameGroupSpec(text[k..]);
    }
    if ParseRename(text).Some? {
      var g1 := ParseRename(text).value.0;
      RenameGroupSpec(text[|g1|..]);
    }
  }

  /** On a match, `ParseRename` returns the groups of the match with the
      shortest group 1. */
  lemma ParseRenameSome(text: string)
    requires ParseRename(text).Some?
    ensures var (g1, g2) := ParseRename(text).value;
            GroupOneAt(text, |g1|) && text == g1 + text[|g1|..]
            && RenameGroup(text[|g1|..]) == Some(g2) && RenameTail(text[|g1|..])
            && forall k :: 1 <= k < |g1| ==> !RenameTail(text[k..])
  {
    LazyGroupSpec(text, 1, RenameGroup);
    var g1 := ParseRename(text).value.0;
    RenameGroupSpec(text[|g1|..]);
    forall k | 1 <= k < |g1| ensures !RenameTail(text[k..]) {
      RenameGroupSpec(text[k..]);
    }
  }

  /** The operand of a delete command: the trimmed text with a trailing
      `--delete` flag removed, trimmed again. */
  function DeleteOperand(trimmedText: string): string {
    Trim(StripDeleteFlag(trimmedText))
  }

  /** Typing a name followed by ` --delete` is recognised as a delete command
      whose operand is that name. */
  lemma DeleteFlagRoundTrip(name: string)
    requires name != [] && Trimmed(name)
    ensures Trim(name + " --delete") == name + " --delete"
    ensures HasDeleteFlag(name + " --delete")
    ensures DeleteOperand(name + " --delete") == name
  {
    var t := name + " --delete";
    assert t[0] == name[0] && t[|t| - 1] == 'e';
    TrimmedFixpoint(t);
    assert t[|name|..] == " --delete";
    assert StartsWith(t[|name|..], " --delete");
    StripFlagText(name, t);
    TrimmedFixpoint(name);
  }

  lemma StripFlagText(name: string, t: string)
    requires name != [] && Trimmed(name) && t == name + " --delete"
    ensures StripDeleteFlag(t) == name
  {
    assert t[|t| - 1] == 'e';
    TrailingStartUnique(t, |t|);
    assert TrimEnd(t) == t;
    assert t[|t| - 8..] == DeleteFlag;
    assert t[|t| - 9] == ' ';
    assert FlagEnds(t);
    var pre := t[..|t| - 8];
    assert pre == name + " ";
    assert pre[|name|..] == " " && pre[|name| - 1] == name[|name| - 1];
    TrailingStartUnique(pre, |name|);
  }

  /** A flag that is not the last word leaves the operand the whole text. */
  lemma DeleteFlagNotTrailing(trimmedText: string)
    requires Trimmed(trimmedText)
    requires forall i :: 0 <= i <= |trimmedText| ==> !DeleteTail(trimmedText[i..])
    ensures DeleteOperand(trimmedText) == trimmedText
  {
    StripDeleteFlagSpec(trimmedText);
    TrimmedFixpoint(trimmedText);
  }

  /** No tail starting inside the old name matches the rename pattern. */
  lemma NoEarlyRenameTail(o: string, n: string, k: nat)
    requires o != [] && Trimmed(o) && !Includes(Lower(o), RenameFlag)
    requires 1 <= k < |o|
    ensures !RenameTail((o + " --rename " + n)[k..])
    ensures RenameGroup((o + " --rename " + n)[k..]).None?
  {
    var s := o + " --rename " + n;
    RenameTextChars(o, n, s);
    var u := s[k..];
    forall a: nat, b: nat | 1 <= a && a + 8 <= |u| ensures !RenameTailAt(u, a, b) {
      var p := k + a;
      DropSlice(s, k, a, a + 8);
      DropSlice(s, k, 0, a);
      if p + 8 <= |o| {
        FlagNotInside(o, s, p);
      } else if p <= |o| {
        SpaceInWindow(s, p, |o|);
      } else if p == |o| + 1 {
        NotAllSpace(s, k, p, |o| - 1);
      } else {
        NotAllSpace(s, k, p, |o| + 1);
      }
    }
    RenameGroupSpec(u);
  }

  lemma RenameTextChars(o: string, n: string, s: string)
    requires o != [] && s == o + " --rename " + n
    ensures |s| == |o| + 10 + |n| && s[..|o|] == o
    ensures s[|o| - 1] == o[|o| - 1] && s[|o|] == ' ' && s[|o| + 1] == '-'
  {
    assert s[..|o|] == o;
  }

  /** A window of `o` lower-cased is not the flag when `o` holds no flag. */
  lemma FlagNotInside(o: string, s: string, p: nat)
    requires p + 8 <= |o| <= |s| && s[..|o|] == o && !Includes(Lower(o), RenameFlag)
    ensures Lower(s[p..p + 8]) != RenameFlag
  {
    assert s[p..p + 8] == o[p..p + 8];
    LowerSlice(o, p, p + 8);
    SliceIncluded(Lower(o), p, p + 8);
  }

  /** A window that holds a space is not the flag. */
  lemma SpaceInWindow(s: string, p: nat, i: nat)
    requires p <= i < p + 8 <= |s| && s[i] == ' '
    ensures Lower(s[p..p + 8]) != RenameFlag
  {
    assert Lower(s[p..p + 8])[i - p] == ' ';
  }

  /** A non-space between `k` and `p` breaks the white space run `s[k..p]`. */
  lemma NotAllSpace(s: string, k: nat, p: nat, i: nat)
    requires k <= i < p <= |s| && !IsSpace(s[i])
    ensures !AllSpace(s[k..p])
  {
    assert s[k..p][i - k] == s[i];
  }

  /** The tail ` --rename new` matches with group 2 equal to `new`. */
  lemma RenameGroupOfFlag(n: string)
    requires n != [] && !IsSpace(n[0]) && NoLineTerminator(n)
    ensures RenameGroup(" --rename " + n) == Some(n)
  {
    var u := " --rename " + n;
    assert u[..1] == " ";
    LeadingSpaceUnique(u, 1);
    assert u[1..9] == RenameFlag;
    var rest := u[9..];
    assert rest == " " + n;
    assert rest[..1] == " ";
    LeadingSpaceUnique(rest, 1);
    assert rest[1..] == n;
  }

  /** Skipping a group-1 length at which the tail does not match. */
  lemma LazyGroupStep(text: string, k: nat, tail: string -> Option<string>)
    requires 1 <= k <= |text| && !IsLineTerminator(text[k - 1])
    requires tail(text[k..]).None?
    ensures LazyGroup(text, k, tail) == LazyGroup(text, k + 1, tail)
  {
  }

  /** The lazy group stops at a length whose tail matches. */
  lemma LazyGroupHit(text: string, m: nat, g2: string, tail: string -> Option<string>)
    requires 1 <= m <= |text| && !IsLineTerminator(text[m - 1])
    requires tail(text[m..]) == Some(g2)
    ensures LazyGroup(text, m, tail) == Some((text[..m], g2))
  {
  }

  /** It moves past a length whose tail does not match. */
  lemma LazyGroupMiss(text: string, k: nat, m: nat, g2: string, tail: string -> Option<string>)
    requires 1 <= k < m <= |text| && NoLineTerminator(text[..m])
    requires LazyGroup(text, k + 1, tail) == Some((text[..m], g2))
    requires tail(text[k..]).None?
    ensures LazyGroup(text, k, tail) == Some((text[..m], g2))
  {
    assert text[..m][k - 1] == text[k - 1];
    LazyGroupStep(text, k, tail);
  }

  /** The lazy group stops at the first length whose tail matches. */
  lemma {:induction false} LazyGroupFinds(text: string, k: nat, m: nat, g2: string, tail: string -> Option<string>)
    requires 1 <= k <= m <= |text| && NoLineTerminator(text[..m])
    requires forall j :: k <= j < m ==> tail(text[j..]).None?
    requires tail(text[m..]) == Some(g2)
    ensures LazyGroup(text, k, tail) == Some((text[..m], g2))
    decreases m - k
  {
    if k < m {
      assert tail(text[k..]).None?;
      LazyGroupFinds(text, k + 1, m, g2, tail);
      LazyGroupMiss(text, k, m, g2, tail);
    } else {
      assert text[..m][m - 1] == text[m - 1];
      LazyGroupHit(text, m, g2, tail);
    }
  }

  /** Typing `old --rename new` is parsed into exactly `old` and `new` when the
      old name is trimmed and holds no `--rename` of its own, the new name does
      not start with white space, and neither holds a line break. */
  lemma RenameFlagRoundTrip(o: string, n: string)
    requires o != [] && Trimmed(o) && !Includes(Lower(o), RenameFlag) && NoLineTerminator(o)
    requires n != [] && !IsSpace(n[0]) && NoLineTerminator(n)
    ensures ParseRename(o + " --rename " + n) == Some((o, n))
  {
    var s := o + " --rename " + n;
    forall j | 1 <= j < |o| ensures RenameGroup(s[j..]).None? {
      NoEarlyRenameTail(o, n, j);
    }
    assert s[..|o|] == o;
    assert s[|o|..] == " --rename " + n;
    RenameGroupOfFlag(n);
    LazyGroupFinds(s, 1, |o|, n, RenameGroup);
  }
}

=== FILE: matcher.dfy ===
/**
 Name resolution against the shortcut map. Both the omnibox ranking and
 `findBestMatch` sort names into four tiers against a lower-cased query:
 equal, starts with, some word starts with, contains.
 */
module Matcher {
  import opened Results
  import opened Text
  import opened Words

  datatype Tier = Exact | Prefix | WordPrefix | Substring

  /** Priority of a tier: lower is better. */
  function Level(t: Tier): nat {
    match t
    case Exact => 0
    case Prefix => 1
    case WordPrefix => 2
    case Substring => 3
  }

  /** The raw test of tier `t` on a lower-cased name `ln` and lower-cased query `q`. */
  predicate Passes(t: Tier, ln: string, q: string) {
    match t
    case Exact => ln == q
    case Prefix => StartsWith(ln, q)
    case WordPrefix => AnyWordStartsWith(SplitWords(ln), q)
    case Substring => Includes(ln, q)
  }

  /** `t` is the best tier `ln` qualifies for. */
  predicate BestTier(t: Tier, ln: string, q: string) {
    Passes(t, ln, q) && forall u: Tier :: Level(u) < Level(t) ==> !Passes(u, ln, q)
  }

  /** The if/else chain of the suggestion loop: the bucket a name goes to, if any. */
  function Classify(ln: string, q: string): Option<Tier> {
    if ln == q then Some(Exact)
    else if StartsWith(ln, q) then Some(Prefix)
    else if AnyWordStartsWith(SplitWords(ln), q) then Some(WordPrefix)
    else if Includes(ln, q) then Some(Substring)
    else None
  }

  /** Each tier's test implies the weakest one: the name contains the query. */
  lemma PassesIncludes(t: Tier, ln: string, q: string)
    requires Passes(t, ln, q)
    ensures Includes(ln, q)
  {
    match t
    case Exact => StartsWithIncludes(ln, q);
    case Prefix => StartsWithIncludes(ln, q);
    case WordPrefix => WordPrefixIncludes(ln, q);
    case Substring =>
  }

  /** A name has at most one best tier. */
  lemma BestTierUnique(t: Tier, u: Tier, ln: string, q: string)
    requires BestTier(t, ln, q) && BestTier(u, ln, q)
    ensures t == u
  {
    assert Level(t) == Level(u);
  }

  /** The if/else chain puts a name in exactly the bucket of its best tier, and
      drops it exactly when it does not contain the query. */
  lemma ClassifySpec(ln: string, q: string)
    ensures forall t :: Classify(ln, q) == Some(t) <==> BestTier(t, ln, q)
    ensures Classify(ln, q).None? <==> !Includes(ln, q)
  {
    var c := Classify(ln, q);
    if c.None? {
      forall t ensures !Passes(t, ln, q) {
        if Passes(t, ln, q) { PassesIncludes(t, ln, q); }
      }
    } else {
      PassesIncludes(c.value, ln, q);
      forall t ensures BestTier(t, ln, q) ==> t == c.value {
        if BestTier(t, ln, q) { BestTierUnique(t, c.value, ln, q); }
      }
    }
  }

  /** One pass of `findBestMatch`: the first name, in store order, passing `t`. */
  function First(names: seq<string>, t: Tier, q: string): (r: Option<string>)
    ensures r.None? <==> forall i :: 0 <= i < |names| ==> !Passes(t, Lower(names[i]), q)
    ensures r.Some? ==> r.value in names && Passes(t, Lower(r.value), q)
  {
    if names == [] then None
    else if Passes(t, Lower(names[0]), q) then Some(names[0])
    else First(names[1..], t, q)
  }

  /** `findBestMatch(searchText, shortcuts)` over the store's names. */
  function FindBestMatch(names: seq<string>, searchText: string): (r: Option<string>)
    ensures r.Some? ==> r.value in names
  {
    var q := Lower(searchText);
    var e := First(names, Exact, q);
    if e.Some? then e
    else
      var p := First(names, Prefix, q);
      if p.Some? then p
      else
        var w := First(names, WordPrefix, q);
        if w.Some? then w
        else First(names, Substring, q)
  }

  /** The test `if (matchedShortcut)` on the result of `findBestMatch`: both
      `null` and the empty string are false in JavaScript, so an empty best
      match counts as no match. */
  function MatchedShortcut(names: seq<string>, searchText: string): (r: Option<string>)
    ensures r.Some? ==> r == FindBestMatch(names, searchText) && r.value != []
    ensures r.None? <==> FindBestMatch(names, searchText).None? || (searchText == [] && [] in names)
  {
    EmptyBestMatch(names, searchText);
    var m := FindBestMatch(names, searchText);
    if m.Some? && m.value != [] then m else None
  }

  /** The best match is the empty name exactly when the query is empty and the
      empty name is stored: the empty name contains no other query, and an empty
      query is matched exactly by no other name. */
  lemma EmptyBestMatch(names: seq<string>, searchText: string)
    ensures FindBestMatch(names, searchText) == Some([]) <==> searchText == [] && [] in names
  {
    var q := Lower(searchText);
    var m := FindBestMatch(names, searchText);
    if m == Some([]) {
      var t: Tier :| Passes(t, Lower([]), q);
      PassesIncludes(t, Lower([]), q);
    }
    if searchText == [] && [] in names {
      var i :| 0 <= i < |names| && names[i] == [];
      assert Passes(Exact, Lower(names[i]), q);
    }
  }

  /** The first pass a name passes is found at its position. */
  lemma {:induction false} FirstAt(names: seq<string>, t: Tier, q: string, i: nat)
    requires i < |names| && Passes(t, Lower(names[i]), q)
    requires forall j :: 0 <= j < i ==> !Passes(t, Lower(names[j]), q)
    ensures First(names, t, q) == Some(names[i])
  {
    if i > 0 {
      FirstAt(names[1..], t, q, i - 1);
    }
  }

  /** There is no best match exactly when no name contains the query (both
      lower-cased); a best match is always a stored name. */
  lemma BestMatchNoneIff(names: seq<string>, searchText: string)
    ensures FindBestMatch(names, searchText).None?
            <==> forall i :: 0 <= i < |names| ==> !Includes(Lower(names[i]), Lower(searchText))
  {
    var q := Lower(searchText);
    if FindBestMatch(names, searchText).Some? {
      var n := FindBestMatch(names, searchText).value;
      var i :| 0 <= i < |names| && names[i] == n;
      var t :| Passes(t, Lower(n), q);
      PassesIncludes(t, Lower(n), q);
    }
  }

  /** A name equal to the query wins over every earlier prefix match: the best
      match is the first equal name in store order. */
  lemma BestMatchPrefersExact(names: seq<string>, searchText: string, i: nat)
    requires i < |names| && Lower(names[i]) == Lower(searchText)
    requires forall j :: 0 <= j < i ==> Lower(names[j]) != Lower(searchText)
    ensures FindBestMatch(names, searchText) == Some(names[i])
  {
    FirstAt(names, Exact, Lower(searchText), i);
  }

  /** The names whose best tier is `t`, in store order. */
  function Bucket(names: seq<string>, q: string, t: Tier): seq<string> {
    if names == [] then []
    else (if BestTier(t, Lower(names[0]), q) then [names[0]] else []) + Bucket(names[1..], q, t)
  }

  /** The ranking: the four buckets concatenated in priority order. */
  function Ranked(names: seq<string>, q: string): seq<string> {
    Bucket(names, q, Exact) + Bucket(names, q, Prefix)
    + Bucket(names, q, WordPrefix) + Bucket(names, q, Substring)
  }

  lemma {:induction false} BucketAppend(a: seq<string>, b: seq<string>, q: string, t: Tier)
    ensures Bucket(a + b, q, t) == Bucket(a, q, t) + Bucket(b, q, t)
  {
    if a != [] {
      assert (a + b)[1..] == a[1..] + b;
      BucketAppend(a[1..], b, q, t);
    } else {
      assert a + b == b;
    }
  }

  lemma {:induction false} BucketMembers(names: seq<string>, q: string, t: Tier)
    ensures forall n :: n in Bucket(names, q, t) <==> n in names && BestTier(t, Lower(n), q)
  {
    if names != [] {
      BucketMembers(names[1..], q, t);
      assert names == [names[0]] + names[1..];
    }
  }

  /** One more name extends the bucket its if/else chain selects and no other. */
  lemma BucketStep(names: seq<string>, i: nat, q: string)
    requires i < |names|
    ensures forall t :: Bucket(names[..i + 1], q, t)
                        == Bucket(names[..i], q, t) + (if Classify(Lower(names[i]), q) == Some(t) then [names[i]] else [])
  {
    assert names[..i + 1] == names[..i] + [names[i]];
    ClassifySpec(Lower(names[i]), q);
    forall t ensures Bucket(names[..i + 1], q, t)
                     == Bucket(names[..i], q, t) + (if Classify(Lower(names[i]), q) == Some(t) then [names[i]] else [])
    {
      BucketAppend(names[..i], [names[i]], q, t);
      assert [names[i]][1..] == [];
    }
  }

  /** The loop of the suggestion handler: one pass over the names, each pushed
      onto the bucket its if/else chain selects, then the buckets concatenated. */
  method RankNames(names: seq<string>, lowerText: string) returns (ranked: seq<string>)
    ensures ranked == Ranked(names, lowerText)
  {
    var exact, starts, wordStarts, contains := [], [], [], [];
    for i := 0 to |names|
      invariant exact == Bucket(names[..i], lowerText, Exact)
      invariant starts == Bucket(names[..i], lowerText, Prefix)
      invariant wordStarts == Bucket(names[..i], lowerText, WordPrefix)
      invariant contains == Bucket(names[..i], lowerText, Substring)
    {
      var name := names[i];
      var lowerName := Lower(name);
      BucketStep(names, i, lowerText);
      if lowerName == lowerText {
        exact := exact + [name];
      } else if StartsWith(lowerName, lowerText) {
        starts := starts + [name];
      } else {
        var words := SplitWords(lowerName);
        if AnyWordStartsWith(words, lowerText) {
          wordStarts := wordStarts + [name];
        } else if Includes(lowerName, lowerText) {
          contains := contains + [name];
        }
      }
    }
    assert names[..|names|] == names;
    ranked := exact + starts + wordStarts + contains;
  }

  /** A name is ranked exactly when its lower-cased form contains the query. */
  lemma RankedMembers(names: seq<string>, q: string)
    ensures forall n :: n in Ranked(names, q) <==> n in names && Includes(Lower(n), q)
  {
    BucketMembers(names, q, Exact);
    BucketMembers(names, q, Prefix);
    BucketMembers(names, q, WordPrefix);
    BucketMembers(names, q, Substring);
    forall n ensures n in Ranked(names, q) <==> n in names && Includes(Lower(n), q) {
      ClassifySpec(Lower(n), q);
    }
  }

  /** No name sits in two buckets. */
  lemma BucketsDisjoint(names: seq<string>, q: string, t: Tier, u: Tier, n: string)
    requires t != u
    requires n in Bucket(names, q, t)
    ensures n !in Bucket(names, q, u)
  {
    BucketMembers(names, q, t);
    BucketMembers(names, q, u);
    if n in Bucket(names, q, u) {
      BestTierUnique(t, u, Lower(n), q);
    }
  }

  /** With an empty query every non-empty name starts with the query, so it
      lands in the starts-with bucket; only the empty name is an exact match. */
  lemma EmptyQueryStartsWith(names: seq<string>)
    ensures forall n :: n in Bucket(names, [], Prefix) <==> n in names && n != []
    ensures forall n :: n in Bucket(names, [], Exact) <==> n in names && n == []
  {
    BucketMembers(names, [], Prefix);
    BucketMembers(names, [], Exact);
    forall n | n in names
      ensures BestTier(Prefix, Lower(n), []) <==> n != []
      ensures BestTier(Exact, Lower(n), []) <==> n == []
    {
      assert StartsWith(Lower(n), []);
      assert Lower(n) == [] <==> n == [];
    }
  }

  /** When no name passes a tier above `t`, the pass for `t` finds the head of
      the bucket for `t`. */
  lemma {:induction false} FirstIsBucketHead(names: seq<string>, q: string, t: Tier)
    requires forall i, u :: 0 <= i < |names| && Level(u) < Level(t) ==> !Passes(u, Lower(names[i]), q)
    ensures First(names, t, q) == if Bucket(names, q, t) == [] then None else Some(Bucket(names, q, t)[0])
  {
    if names != [] {
      FirstIsBucketHead(names[1..], q, t);
    }
  }

  /** The head of the ranking is the best match: the ranking is empty exactly
      when there is no best match, and otherwise starts with it. */
  lemma RankedHeadIsBestMatch(names: seq<string>, searchText: string)
    ensures var r := Ranked(names, Lower(searchText));
            (r == [] <==> FindBestMatch(names, searchText).None?)
            && (r != [] ==> FindBestMatch(names, searchText) == Some(r[0]))
  {
    var q := Lower(searchText);
    FirstIsBucketHead(names, q, Exact);
    if First(names, Exact, q).None? {
      FirstIsBucketHead(names, q, Prefix);
      if First(names, Prefix, q).None? {
        FirstIsBucketHead(names, q, WordPrefix);
        if First(names, WordPrefix, q).None? {
          FirstIsBucketHead(names, q, Substring);
        }
      }
    }
  }
}

=== FILE: omnibox.dfy ===
/**
 The two omnibox listeners: the suggestions offered while the user types, and
 the handler for the text entered when a suggestion is picked or Enter is
 pressed. Storage errors, notifications and the chrome.* calls are outside the
 model; each listener is a function of the stored map and the typed text.
 */
module Omnibox {
  import opened Results
  import opened Text
  import opened Store
  import opened Matcher
  import opened Flags
  import opened Tokens
  import opened Background

  /** What a suggestion's description says, without its markup. */
  datatype Label =
    | DeleteOffer(name: string, url: string)
    | RenameOffer(name: string, newName: string)
    | NoMatchNotice(query: string)
    | NavigateLabel(name: string, url: string)
    | ShortcutLabel(name: string, url: string)
    | SaveOffer(name: string)

  /** `content` is what the omnibox hands back when the suggestion is picked. */
  datatype Suggestion = Suggestion(content: string, description: Label)

  /** The shortcuts whose best tier is `t`, in store order. */
  function Filter(s: Shortcuts, q: string, t: Tier): (r: Shortcuts)
    ensures |r| <= |s|
  {
    if s == [] then []
    else (if BestTier(t, Lower(s[0].name), q) then [s[0]] else []) + Filter(s[1..], q, t)
  }

  /** Filtering the entries picks the names of the matching bucket. */
  lemma {:induction false} FilterNames(s: Shortcuts, q: string, t: Tier)
    ensures Names(Filter(s, q, t)) == Bucket(Names(s), q, t)
  {
    if s != [] {
      FilterNames(s[1..], q, t);
      assert Names(s)[1..] == Names(s[1..]);
    }
  }

  /** One search result: the exact-match tier reads "Navigate to", the others
      "Shortcut". */
  function Item(e: Entry, t: Tier): Suggestion {
    Suggestion(e.name, if t == Exact then NavigateLabel(e.name, e.rec.url) else ShortcutLabel(e.name, e.rec.url))
  }

  function Items(es: Shortcuts, t: Tier): (r: seq<Suggestion>)
    ensures |r| == |es|
    ensures forall i :: 0 <= i < |es| ==> r[i] == Item(es[i], t)
  {
    seq(|es|, i requires 0 <= i < |es| => Item(es[i], t))
  }

  /** The search suggestions, exact matches first, then prefix, word-prefix and
      substring matches, each tier in store order. */
  function SearchItems(s: Shortcuts, q: string): seq<Suggestion> {
    Items(Filter(s, q, Exact), Exact) + Items(Filter(s, q, Prefix), Prefix)
    + Items(Filter(s, q, WordPrefix), WordPrefix) + Items(Filter(s, q, Substring), Substring)
  }

  /** The suggestions for the typed `text`. A delete flag wins over a rename
      flag, which wins over a search; the search ends with an offer to save the
      current page when no name matches exactly and the text is not blank. */
  function Suggest(s: Shortcuts, text: string): (r: seq<Suggestion>)
  {
    var t := Trim(text);
    if HasDeleteFlag(t) then
      var name := DeleteOperand(t);
      (match MatchedShortcut(Names(s), name)
       case Some(m) => [Suggestion(EncodeDelete(m), DeleteOffer(m, UrlOf(s, m)))]
       case None => [Suggestion(text, NoMatchNotice(name))])
    else match ParseRename(t)
      case Some((g1, g2)) =>
        var (o, n) := (Trim(g1), Trim(g2));
        (match MatchedShortcut(Names(s), o)
         case Some(m) => [Suggestion(EncodeRename(m, n), RenameOffer(m, n))]
         case None => [Suggestion(text, NoMatchNotice(o))])
      case None =>
        SearchItems(s, Lower(t)) + SaveOffers(s, t)
  }

  /** The offer to save the current page under the trimmed text `t`, when no
      name equals it up to letter case and it is not blank. */
  function SaveOffers(s: Shortcuts, t: string): seq<Suggestion> {
    if Filter(s, Lower(t), Exact) == [] && t != [] then [Suggestion(EncodeSave(t), SaveOffer(t))] else []
  }

  lemma SuggestSearchShape(s: Shortcuts, text: string)
    requires !HasDeleteFlag(Trim(text)) && ParseRename(Trim(text)).None?
    ensures Suggest(s, text) == SearchItems(s, Lower(Trim(text))) + SaveOffers(s, Trim(text))
  {
  }

  /** The URL stored under a name that is known to be present. */
  function UrlOf(s: Shortcuts, name: string): string
    requires name in Names(s)
  {
    Lookup(s, name).value.url
  }

  /** What pressing Enter does. */
  datatype Effect =
    | Navigate(url: string)                          // open this URL
    | Update(outcome: Result<Shortcuts, StoreError>) // write the new map, or notify
    | Ignored                                        // do nothing

  /** The handler for entered text. Tokens from picked suggestions come first;
      then a delete flag, then a rename flag, both resolved through the best
      match; then an exact name; then the best match; and failing all of those
      the current page is saved under the text. `tab` is the active tab's URL. */
  function Enter(s: Shortcuts, text: string, tab: Option<string>): (e: Effect)
    ensures e.Navigate? ==> HasHttpScheme(e.url)
  {
    match DecodeToken(text)
    case Some(Delete(n)) => Update(DeleteShortcut(s, n))
    case Some(Rename(o, n)) => Update(RenameShortcut(s, o, n))
    case Some(Save(n)) => Update(SaveCurrentPage(s, n, tab))
    case Some(Ignore) => Ignored
    case None =>
      if HasDeleteFlag(text) then
        var name := DeleteOperand(text);
        (match MatchedShortcut(Names(s), name)
         case Some(m) => Update(DeleteShortcut(s, m))
         case None => Update(Failure(NoMatch(name))))
      else match ParseRename(text)
        case Some((g1, g2)) =>
          var (o, n) := (Trim(g1), Trim(g2));
          (match MatchedShortcut(Names(s), o)
           case Some(m) => Update(RenameShortcut(s, m, n))
           case None => Update(Failure(NoMatch(o))))
        case None =>
          if Has(s, text) then Navigate(NormalizeUrl(UrlOf(s, text)))
          else match MatchedShortcut(Names(s), text)
            case Some(m) => Navigate(NormalizeUrl(UrlOf(s, m)))
            case None => Update(SaveCurrentPage(s, text, tab))
  }

  /** The `content` of each suggestion, in order. */
  function Contents(r: seq<Suggestion>): (cs: seq<string>)
    ensures |cs| == |r| && forall i :: 0 <= i < |r| ==> cs[i] == r[i].content
  {
    seq(|r|, i requires 0 <= i < |r| => r[i].content)
  }

  lemma ContentsItems(s: Shortcuts, q: string, t: Tier)
    ensures Contents(Items(Filter(s, q, t), t)) == Bucket(Names(s), q, t)
  {
    FilterNames(s, q, t);
  }

  /** The search suggestions name exactly the ranking, in ranking order. */
  lemma SearchContents(s: Shortcuts, q: string)
    ensures Contents(SearchItems(s, q)) == Ranked(Names(s), q)
  {
    var (a, b, c, d) := (Items(Filter(s, q, Exact), Exact), Items(Filter(s, q, Prefix), Prefix),
                         Items(Filter(s, q, WordPrefix), WordPrefix), Items(Filter(s, q, Substring), Substring));
    ContentsItems(s, q, Exact);
    ContentsItems(s, q, Prefix);
    ContentsItems(s, q, WordPrefix);
    ContentsItems(s, q, Substring);
    ContentsAppend(a, b);
    ContentsAppend(a + b, c);
    ContentsAppend(a + b + c, d);
  }

  lemma ContentsAppend(a: seq<Suggestion>, b: seq<Suggestion>)
    ensures Contents(a + b) == Contents(a) + Contents(b)
  {
  }

  /** Each filtered entry is in the store and its best tier is the filter's. */
  lemma {:induction false} FilterMembers(s: Shortcuts, q: string, t: Tier)
    ensures forall e :: e in Filter(s, q, t) <==> e in s && BestTier(t, Lower(e.name), q)
  {
    if s != [] {
      FilterMembers(s[1..], q, t);
      assert s == [s[0]] + s[1..];
    }
  }

  /** A search suggestion reads "Navigate to" exactly when its name equals the
      query up to letter case. */
  lemma NavigateLabelIffExact(s: Shortcuts, q: string, i: nat)
    requires i < |SearchItems(s, q)|
    ensures var x := SearchItems(s, q)[i];
            x.description.NavigateLabel? <==> Lower(x.content) == q
  {
    var (a, b, c, d) := (Items(Filter(s, q, Exact), Exact), Items(Filter(s, q, Prefix), Prefix),
                         Items(Filter(s, q, WordPrefix), WordPrefix), Items(Filter(s, q, Substring), Substring));
    TierLabels(s, q, Exact);
    TierLabels(s, q, Prefix);
    TierLabels(s, q, WordPrefix);
    TierLabels(s, q, Substring);
    LabelsAppend(a, b, q);
    LabelsAppend(a + b, c, q);
    LabelsAppend(a + b + c, d, q);
  }

  /** Every suggestion in `xs` reads "Navigate to" exactly when its name is `q`
      up to letter case. */
  predicate NavigatesOnExact(xs: seq<Suggestion>, q: string) {
    forall k :: 0 <= k < |xs| ==> (xs[k].description.NavigateLabel? <==> Lower(xs[k].content) == q)
  }

  lemma LabelsAppend(xs: seq<Suggestion>, ys: seq<Suggestion>, q: string)
    requires NavigatesOnExact(xs, q) && NavigatesOnExact(ys, q)
    ensures NavigatesOnExact(xs + ys, q)
  {
    forall k | |xs| <= k < |xs + ys|
      ensures (xs + ys)[k] == ys[k - |xs|]
    {
    }
  }

  lemma TierLabels(s: Shortcuts, q: string, t: Tier)
    ensures NavigatesOnExact(Items(Filter(s, q, t), t), q)
  {
    forall j | 0 <= j < |Filter(s, q, t)|
      ensures var x := Items(Filter(s, q, t), t)[j]; x.description.NavigateLabel? <==> Lower(x.content) == q
    {
      var e := FilteredAt(s, q, t, j);
      BestTierExact(Lower(e.name), q);
    }
  }

  lemma FilteredAt(s: Shortcuts, q: string, t: Tier, j: nat) returns (e: Entry)
    requires j < |Filter(s, q, t)|
    ensures Items(Filter(s, q, t), t)[j] == Item(e, t) && e in s && BestTier(t, Lower(e.name), q)
  {
    e := Filter(s, q, t)[j];
    FilterMembers(s, q, t);
    assert e in Filter(s, q, t);
  }

  /** A delete flag in the trimmed text yields one suggestion: the offer to
      delete the best match for the operand, or, without a match (or with the
      empty name as best match), a notice that hands back the typed text. */
  lemma SuggestDeleteFlag(s: Shortcuts, text: string)
    requires HasDeleteFlag(Trim(text))
    ensures var r := Suggest(s, text); var found := MatchedShortcut(Names(s), DeleteOperand(Trim(text)));
            |r| == 1
            && (r[0].description.DeleteOffer? <==> found.Some?)
            && (found.Some? ==> r[0].content == EncodeDelete(found.value) && Has(s, found.value)
                                && r[0].description.name == found.value)
            && (found.None? ==> r[0].content == text)
  {
  }

  /** A rename flag (and no delete flag) yields one suggestion: the offer to
      rename the best match for the first group to the trimmed second group,
      or, without a non-empty match, a notice that hands back the typed text. */
  lemma SuggestRenameFlag(s: Shortcuts, text: string)
    requires !HasDeleteFlag(Trim(text)) && ParseRename(Trim(text)).Some?
    ensures var r := Suggest(s, text); var (g1, g2) := ParseRename(Trim(text)).value;
            var found := MatchedShortcut(Names(s), Trim(g1));
            |r| == 1
            && (r[0].description.RenameOffer? <==> found.Some?)
            && (found.Some? ==> r[0].content == EncodeRename(found.value, Trim(g2)) && Has(s, found.value)
                                && r[0].description == RenameOffer(found.value, Trim(g2)))
            && (found.None? ==> r[0].content == text)
  {
  }

  /** Without flags the suggestions are the ranking of the store's names
      against the lower-cased trimmed text, followed by an offer to save the
      current page under the trimmed text exactly when no name equals it up to
      letter case and it is not blank. */
  lemma SuggestSearch(s: Shortcuts, text: string)
    requires !HasDeleteFlag(Trim(text)) && ParseRename(Trim(text)).None?
    ensures var r := Suggest(s, text); var t := Trim(text); var ranked := Ranked(Names(s), Lower(t));
            var offer := t != [] && forall n :: n in Names(s) ==> Lower(n) != Lower(t);
            |ranked| <= |r|
            && Contents(r[..|ranked|]) == ranked
            && |r| == |ranked| + (if offer then 1 else 0)
            && (offer ==> r[|ranked|] == Suggestion(EncodeSave(t), SaveOffer(t)))
  {
    var t := Trim(text);
    var q := Lower(t);
    SearchContents(s, q);
    var r := Suggest(s, text);
    SuggestSearchShape(s, text);
    assert r[..|SearchItems(s, q)|] == SearchItems(s, q);
    ExactFilterEmpty(s, q);
  }

  /** No entry passes the exact filter exactly when no name equals the query
      up to letter case. */
  lemma {:induction false} ExactFilterEmpty(s: Shortcuts, q: string)
    ensures Filter(s, q, Exact) == [] <==> forall n :: n in Names(s) ==> Lower(n) != q
  {
    if s != [] {
      ExactFilterEmpty(s[1..], q);
      BestTierExact(Lower(s[0].name), q);
      assert Names(s) == [s[0].name] + Names(s[1..]);
    }
  }

  lemma BestTierExact(ln: string, q: string)
    ensures BestTier(Exact, ln, q) <==> ln == q
  {
  }

  /** The search items are navigation or shortcut lines, never a save offer. */
  lemma SearchItemsNotSaveOffer(s: Shortcuts, q: string)
    ensures forall i :: 0 <= i < |SearchItems(s, q)| ==> !SearchItems(s, q)[i].description.SaveOffer?
  {
  }

  /** The first search suggestion is the best match: there is one exactly when
      `findBestMatch` finds a name, and it names that shortcut. */
  lemma SuggestHeadIsBestMatch(s: Shortcuts, text: string)
    requires !HasDeleteFlag(Trim(text)) && ParseRename(Trim(text)).None?
    ensures var found := FindBestMatch(Names(s), Trim(text));
            var r := Suggest(s, text);
            (found.Some? ==> r != [] && r[0].content == found.value && !r[0].description.SaveOffer?)
            && (found.None? ==> forall i :: 0 <= i < |r| ==> r[i].description.SaveOffer?)
  {
    var t := Trim(text);
    var q := Lower(t);
    var items := SearchItems(s, q);
    var r := Suggest(s, text);
    SuggestSearchShape(s, text);
    SearchContents(s, q);
    RankedHeadIsBestMatch(Names(s), t);
    SearchItemsNotSaveOffer(s, q);
    if items != [] {
      assert r[0] == items[0];
      assert Contents(items)[0] == items[0].content;
    }
  }

  /** Picking a delete offer deletes that shortcut. */
  lemma PickDeleteOffer(s: Shortcuts, m: string, tab: Option<string>)
    requires Has(s, m) && Trimmed(m)
    ensures Enter(s, EncodeDelete(m), tab) == Update(Success(Remove(s, m)))
  {
    DeleteTokenRoundTrip(m);
  }

  /** Picking a rename offer renames that shortcut, provided the old name has no
      colon. */
  lemma PickRenameOffer(s: Shortcuts, m: string, n: string, tab: Option<string>)
    requires ':' !in m && Trimmed(m) && Trimmed(n)
    ensures Enter(s, EncodeRename(m, n), tab) == Update(RenameShortcut(s, m, n))
  {
    RenameTokenRoundTrip(m, n);
  }

  /** Picking the save offer saves the current page under the trimmed text. */
  lemma PickSaveOffer(s: Shortcuts, t: string, tab: Option<string>)
    requires Trimmed(t)
    ensures Enter(s, EncodeSave(t), tab) == Update(SaveCurrentPage(s, t, tab))
  {
    SaveTokenRoundTrip(t);
  }

  /** Pressing Enter on a typed delete command does what picking its
      suggestion does, when the text is already trimmed and is no token, and
      the best match has no boundary white space. The suggestion listener trims
      the text and the Enter handler does not, hence the first condition. */
  lemma TypedDeleteAgrees(s: Shortcuts, text: string, tab: Option<string>)
    requires Trimmed(text) && DecodeToken(text).None? && HasDeleteFlag(text)
    requires var found := MatchedShortcut(Names(s), DeleteOperand(text)); found.Some? ==> Trimmed(found.value)
    ensures Suggest(s, text) != [] && Enter(s, text, tab) == Enter(s, Suggest(s, text)[0].content, tab)
  {
    TrimmedFixpoint(text);
    SuggestDeleteFlag(s, text);
    var found := MatchedShortcut(Names(s), DeleteOperand(text));
    if found.Some? {
      PickDeleteOffer(s, found.value, tab);
    }
  }

  /** Pressing Enter on a typed rename command does what picking its
      suggestion does, when the text is already trimmed and is no token, and
      the best match has no colon and no boundary white space. */
  lemma TypedRenameAgrees(s: Shortcuts, text: string, tab: Option<string>)
    requires Trimmed(text) && DecodeToken(text).None? && !HasDeleteFlag(text) && ParseRename(text).Some?
    requires var found := MatchedShortcut(Names(s), Trim(ParseRename(text).value.0));
             found.Some? ==> ':' !in found.value && Trimmed(found.value)
    ensures Suggest(s, text) != [] && Enter(s, text, tab) == Enter(s, Suggest(s, text)[0].content, tab)
  {
    TrimmedFixpoint(text);
    SuggestRenameFlag(s, text);
    var (g1, g2) := ParseRename(text).value;
    var found := MatchedShortcut(Names(s), Trim(g1));
    if found.Some? {
      TrimTrimmed(g2);
      PickRenameOffer(s, found.value, Trim(g2), tab);
    }
  }

  /** Plain text (no token, no flag) navigates exactly when some name contains
      it up to letter case, and otherwise saves the current page under it. */
  lemma EnterPlainText(s: Shortcuts, text: string, tab: Option<string>)
    requires DecodeToken(text).None? && !HasDeleteFlag(text) && ParseRename(text).None?
    ensures Enter(s, text, tab).Navigate? <==> exists n :: n in Names(s) && Includes(Lower(n), Lower(text))
    ensures !Enter(s, text, tab).Navigate? ==> Enter(s, text, tab) == Update(SaveCurrentPage(s, text, tab))
  {
    BestMatchNoneIff(Names(s), text);
    if Has(s, text) {
      assert Includes(Lower(text), Lower(text)) by { assert Lower(text)[0..] == Lower(text); }
    }
  }

  /** A stored name typed exactly navigates to its own URL. */
  lemma EnterExactName(s: Shortcuts, text: string, tab: Option<string>)
    requires DecodeToken(text).None? && !HasDeleteFlag(text) && ParseRename(text).None?
    requires Has(s, text)
    ensures Enter(s, text, tab) == Navigate(NormalizeUrl(Lookup(s, text).value.url))
  {
  }

  /** Plain trimmed text that is no stored name navigates to the shortcut the
      first suggestion names. */
  lemma EnterFollowsFirstSuggestion(s: Shortcuts, text: string, tab: Option<string>)
    requires Trimmed(text) && DecodeToken(text).None? && !HasDeleteFlag(text) && ParseRename(text).None?
    requires !Has(s, text) && FindBestMatch(Names(s), text).Some?
    ensures Suggest(s, text) != [] && Suggest(s, text)[0].content in Names(s)
    ensures Enter(s, text, tab) == Navigate(NormalizeUrl(UrlOf(s, Suggest(s, text)[0].content)))
  {
    TrimmedFixpoint(text);
    SuggestHeadIsBestMatch(s, text);
  }

  /** A delete or rename command whose operand trims to nothing finds no
      shortcut even when the empty name is stored: the empty best match is
      false, so the map is left as it is and the user is told nothing matched.
      The suggestion shown for such a command is the same notice. */
  lemma EnterEmptyMatchFindsNothing(s: Shortcuts, text: string, tab: Option<string>)
    requires DecodeToken(text).None? && [] in Names(s)
    ensures HasDeleteFlag(text) && DeleteOperand(text) == []
            ==> Enter(s, text, tab) == Update(Failure(NoMatch([])))
    ensures !HasDeleteFlag(text) && ParseRename(text).Some? && Trim(ParseRename(text).value.0) == []
            ==> Enter(s, text, tab) == Update(Failure(NoMatch([])))
    ensures HasDeleteFlag(Trim(text)) && DeleteOperand(Trim(text)) == []
            ==> Suggest(s, text) == [Suggestion(text, NoMatchNotice([]))]
  {
  }

  /** An instance: with the empty name stored first, entering ` --delete`
      strips the text to the empty operand, whose best match is the empty
      name; nothing is deleted. */
  lemma EmptyNameNotDeleted()
    ensures Enter([Entry([], Record("u", None)), Entry("a", Record("v", None))], " --delete", None)
            == Update(Failure(NoMatch([])))
  {
    var s := [Entry([], Record("u", None)), Entry("a", Record("v", None))];
    var t := " --delete";
    TrailingStartUnique(t, |t|);
    assert TrimEnd(t) == t;
    assert Lower(t[1..]) == DeleteFlag by { assert t[1..] == DeleteFlag; }
    assert FlagEnds(t);
    TrailingStartUnique(t[..1], 0);
    assert StripDeleteFlag(t) == [];
    assert DeleteOperand(t) == [] by { TrimmedFixpoint([]); }
    assert HasDeleteFlag(t) by { assert StartsWith(t[0..], " --delete"); }
    assert !StartsWith(t, DeletePrefix) && !StartsWith(t, RenamePrefix) && !StartsWith(t, SavePrefix) by {
      assert t[0] == ' ';
    }
    assert Names(s)[0] == [];
    EnterEmptyMatchFindsNothing(s, t, None);
  }
}

=== FILE: popup.dfy ===
/**
 The popup's edits of the shortcut map: save from the form, edit an existing
 shortcut, delete, import a JSON file, clear everything; and the list filter.
 `isValidUrl` wraps the `URL` constructor, which is outside the model, so it is
 a parameter.
 */
module Popup {
  import opened Results
  import opened Text
  import opened Store
  import opened Matcher
  import opened Background

  /** Why the popup refuses an edit. */
  datatype PopupError =
    | EmptyName      // the trimmed name field is empty
    | EmptyUrl       // the trimmed URL field is empty
    | InvalidUrl     // the URL field does not parse
    | InvalidInput   // the edit form failed one of the three checks
    | InvalidFormat  // the imported JSON is an array or not an object

  /** Saves the form: both fields are trimmed, the name and URL must be
      non-empty and the URL must parse; the record replaces any of that name. */
  function SaveShortcut(s: Shortcuts, nameInput: string, urlInput: string, isValidUrl: string -> bool)
    : (r: Result<Shortcuts, PopupError>)
    ensures r.Success? <==> Trim(nameInput) != [] && Trim(urlInput) != [] && isValidUrl(Trim(urlInput))
    ensures Trim(nameInput) == [] ==> r == Failure(EmptyName)
    ensures Trim(nameInput) != [] && Trim(urlInput) == [] ==> r == Failure(EmptyUrl)
    ensures Trim(nameInput) != [] && Trim(urlInput) != [] && !isValidUrl(Trim(urlInput)) ==> r == Failure(InvalidUrl)
    ensures r.Success? ==> Lookup(r.value, Trim(nameInput)) == Some(Record(Trim(urlInput), None))
                           && forall k :: k != Trim(nameInput) ==> Lookup(r.value, k) == Lookup(s, k)
  {
    var name := Trim(nameInput);
    var url := Trim(urlInput);
    if name == [] then Failure(EmptyName)
    else if url == [] then Failure(EmptyUrl)
    else if !isValidUrl(url) then Failure(InvalidUrl)
    else Success(Put(s, name, Record(url, None)))
  }

  /** Saving from the popup and saving the current page from the omnibox write
      the same record, for a URL that is not a browser page. */
  lemma SaveAgreesWithOmnibox(s: Shortcuts, name: string, url: string, isValidUrl: string -> bool)
    requires name != [] && Trimmed(name) && url != [] && Trimmed(url) && isValidUrl(url)
    requires !IsInternalUrl(url)
    ensures SaveShortcut(s, name, url, isValidUrl).Success?
    ensures SaveShortcut(s, name, url, isValidUrl).value == SaveCurrentPage(s, name, Some(url)).value
  {
    TrimmedFixpoint(name);
    TrimmedFixpoint(url);
  }

  /** Saving keeps names distinct and stores names without boundary white
      space. */
  lemma SaveValid(s: Shortcuts, nameInput: string, urlInput: string, isValidUrl: string -> bool)
    requires Valid(s) && SaveShortcut(s, nameInput, urlInput, isValidUrl).Success?
    ensures Valid(SaveShortcut(s, nameInput, urlInput, isValidUrl).value)
    ensures Trimmed(Trim(nameInput))
  {
    PutValid(s, Trim(nameInput), Record(Trim(urlInput), None));
    TrimTrimmed(nameInput);
  }

  /** The edit form: the shortcut `name` is removed, then the trimmed new name
      is set to the trimmed new URL, with no favicon. */
  function UpdateShortcut(s: Shortcuts, name: string, nameInput: string, urlInput: string, isValidUrl: string -> bool)
    : (r: Result<Shortcuts, PopupError>)
    ensures r.Failure? <==> Trim(nameInput) == [] || Trim(urlInput) == [] || !isValidUrl(Trim(urlInput))
    ensures r.Failure? ==> r.error == InvalidInput
    ensures r.Success? ==> Lookup(r.value, Trim(nameInput)) == Some(Record(Trim(urlInput), None))
    ensures r.Success? && name != Trim(nameInput) ==> !Has(r.value, name)
    ensures r.Success? ==> forall k :: k != name && k != Trim(nameInput) ==> Lookup(r.value, k) == Lookup(s, k)
  {
    var newName := Trim(nameInput);
    var newUrl := Trim(urlInput);
    if newName == [] || newUrl == [] || !isValidUrl(newUrl) then Failure(InvalidInput)
    else Success(Put(Remove(s, name), newName, Record(newUrl, None)))
  }

  /** An edit keeps names distinct. The new name goes to the end of the order,
      even when it is the old name, unless it overwrites another shortcut, which
      keeps its place. */
  lemma UpdateValid(s: Shortcuts, name: string, nameInput: string, urlInput: string, isValidUrl: string -> bool)
    requires Valid(s) && UpdateShortcut(s, name, nameInput, urlInput, isValidUrl).Success?
    ensures var r := UpdateShortcut(s, name, nameInput, urlInput, isValidUrl).value;
            var newName := Trim(nameInput);
            Valid(r)
            && (newName == name || !Has(s, newName) ==> Names(r) == RemoveAll(Names(s), name) + [newName])
            && (newName != name && Has(s, newName) ==> Names(r) == RemoveAll(Names(s), name))
  {
    var newName := Trim(nameInput);
    var rec := Record(Trim(urlInput), None);
    var t := Remove(s, name);
    RemoveValid(s, name);
    RemoveNames(s, name);
    PutValid(t, newName, rec);
    PutNames(t, newName, rec);
  }

  /** An edit that keeps the name changes only the URL of that shortcut. */
  lemma UpdateSameName(s: Shortcuts, name: string, urlInput: string, isValidUrl: string -> bool)
    requires Trimmed(name) && name != [] && Trim(urlInput) != [] && isValidUrl(Trim(urlInput))
    ensures var r := UpdateShortcut(s, name, name, urlInput, isValidUrl);
            r.Success? && SameContents(r.value, Put(s, name, Record(Trim(urlInput), None)))
  {
    TrimmedFixpoint(name);
  }

  /** The popup's delete: the named shortcut is gone and nothing else changes;
      deleting an absent name leaves the map as it was. */
  function DeleteShortcut(s: Shortcuts, name: string): (r: Shortcuts)
    ensures !Has(r, name)
    ensures forall k :: k != name ==> Lookup(r, k) == Lookup(s, k)
    ensures !Has(s, name) ==> r == s
  {
    Remove(s, name)
  }

  /** Where the popup and the omnibox both delete, they agree. */
  lemma DeleteAgreesWithOmnibox(s: Shortcuts, name: string)
    requires Has(s, name)
    ensures Background.DeleteShortcut(s, name) == Success(DeleteShortcut(s, name))
  {
  }

  /** The shapes `JSON.parse` can return, as far as the import check tells
      them apart. An object's values are taken to be shortcut records. */
  datatype Parsed =
    | ParsedObject(entries: Shortcuts)
    | ParsedArray
    | ParsedNull
    | ParsedScalar

  /** Import: arrays and non-objects are refused. `null` passes the check, since
      its type is "object", and spreading it adds nothing. An object is spread
      over the existing map. */
  function ImportShortcuts(s: Shortcuts, parsed: Parsed): (r: Result<Shortcuts, PopupError>)
    ensures r.Failure? <==> parsed.ParsedArray? || parsed.ParsedScalar?
    ensures r.Failure? ==> r.error == InvalidFormat
    ensures parsed.ParsedNull? ==> r == Success(s)
  {
    match parsed
    case ParsedObject(b) => Success(Merge(s, b))
    case ParsedNull => Success(s)
    case _ => Failure(InvalidFormat)
  }

  /** An imported object wins on every key it has; every other key keeps its
      old value; names stay distinct. */
  lemma ImportSpec(s: Shortcuts, b: Shortcuts)
    requires Valid(b)
    ensures var r := ImportShortcuts(s, ParsedObject(b)).value;
            (forall k :: Has(b, k) ==> Lookup(r, k) == Lookup(b, k))
            && (forall k :: !Has(b, k) ==> Lookup(r, k) == Lookup(s, k))
            && (Valid(s) ==> Valid(r))
  {
    MergeSpec(s, b);
  }

  /** Importing the same file twice is importing it once. */
  lemma ImportIdempotent(s: Shortcuts, b: Shortcuts)
    requires Valid(b)
    ensures SameContents(Merge(Merge(s, b), b), Merge(s, b))
  {
    MergeSpec(s, b);
    MergeSpec(Merge(s, b), b);
  }

  /** Clear-all: the empty map. */
  function ClearAll(s: Shortcuts): (r: Shortcuts)
    ensures forall k :: !Has(r, k)
    ensures Valid(r)
  {
    []
  }

  /** The search term: the input lower-cased, then trimmed. */
  function SearchTerm(input: string): string {
    Trim(Lower(input))
  }

  /** An item stays visible when its lower-cased name or URL contains the term. */
  predicate Visible(e: Entry, term: string) {
    Includes(Lower(e.name), term) || Includes(Lower(e.rec.url), term)
  }

  /** The items left visible by the search box, in list order. */
  function VisibleItems(s: Shortcuts, input: string): (r: Shortcuts)
    ensures forall e :: e in r <==> e in s && Visible(e, SearchTerm(input))
  {
    var term := SearchTerm(input);
    Keep(s, term)
  }

  function Keep(s: Shortcuts, term: string): (r: Shortcuts)
    ensures forall e :: e in r <==> e in s && Visible(e, term)
  {
    if s == [] then []
    else
      var rest := Keep(s[1..], term);
      assert forall e :: e in s <==> e == s[0] || e in s[1..];
      (if Visible(s[0], term) then [s[0]] else []) + rest
  }

  /** A blank search shows every item. */
  lemma BlankSearchShowsAll(s: Shortcuts, input: string)
    requires Trim(input) == []
    ensures VisibleItems(s, input) == s
  {
    LowerTrim(input);
    KeepAll(s, SearchTerm(input));
  }

  lemma {:induction false} KeepAll(s: Shortcuts, term: string)
    requires term == []
    ensures Keep(s, term) == s
  {
    if s != [] {
      EmptyIncluded(Lower(s[0].name));
      KeepAll(s[1..], term);
    }
  }

  /** Every shortcut the omnibox would suggest for a query stays visible in the
      popup list when the same query is typed into its search box. */
  lemma SuggestedIsVisible(s: Shortcuts, input: string, e: Entry)
    requires e in s && e.name in Ranked(Names(s), Lower(Trim(input)))
    ensures e in VisibleItems(s, input)
  {
    RankedMembers(Names(s), Lower(Trim(input)));
    LowerTrim(input);
  }
}

=== FILE: results.dfy ===
/** Optional values and success/failure results shared by every module. */
module Results {

  /** A value that may be absent: JavaScript's `null`/`undefined` results. */
  datatype Option<+T> = None | Some(value: T)

  /** The outcome of an operation that either produces a value or is rejected. */
  datatype Result<+R, +E> = Success(value: R) | Failure(error: E)
}

=== FILE: store.dfy ===
/**
 The shortcut map: an object from shortcut name to record. It is modelled as the
 sequence of its entries in key-iteration order; a valid map has distinct names.
 Every operation below is the effect of one JavaScript statement on the object:
 reading `obj[k]`, assigning `obj[k] = v`, `delete obj[k]`, `{...a, ...b}`.
 */
module Store {
  import opened Results

  /** A stored shortcut: `{url, favicon?}`. */
  datatype Record = Record(url: string, favicon: Option<string>)

  datatype Entry = Entry(name: string, rec: Record)

  type Shortcuts = seq<Entry>

  /** Object keys are distinct: no name occurs again after its entry. */
  predicate Valid(s: Shortcuts) {
    s == [] || (s[0].name !in Names(s[1..]) && Valid(s[1..]))
  }

  /** `Object.keys(s)`, in iteration order. */
  function Names(s: Shortcuts): (ns: seq<string>)
    ensures |ns| == |s|
    ensures forall i :: 0 <= i < |s| ==> ns[i] == s[i].name
  {
    if s == [] then [] else [s[0].name] + Names(s[1..])
  }

  /** `s[k]`: the record stored under `k`, if any. */
  function Lookup(s: Shortcuts, k: string): (r: Option<Record>)
    ensures r.Some? <==> k in Names(s)
    ensures r.Some? ==> Entry(k, r.value) in s
  {
    if s == [] then None
    else if s[0].name == k then Some(s[0].rec)
    else Lookup(s[1..], k)
  }

  predicate Has(s: Shortcuts, k: string) {
    Lookup(s, k).Some?
  }

  /** In a valid map the entry at position `i` is what a lookup of its name finds. */
  lemma {:induction false} LookupAt(s: Shortcuts, i: nat)
    requires Valid(s) && i < |s|
    ensures Lookup(s, s[i].name) == Some(s[i].rec)
  {
    if i > 0 {
      LookupAt(s[1..], i - 1);
      assert Names(s[1..])[i - 1] == s[i].name;
    }
  }

  /** Valid maps have pairwise distinct names. */
  lemma {:induction false} ValidDistinct(s: Shortcuts, i: nat, j: nat)
    requires Valid(s) && i < j < |s|
    ensures s[i].name != s[j].name
  {
    if i > 0 {
      ValidDistinct(s[1..], i - 1, j - 1);
    } else {
      assert Names(s[1..])[j - 1] == s[j].name;
    }
  }

  /** `s[k] = v`: overwrites in place when `k` is present, appends otherwise. */
  function Put(s: Shortcuts, k: string, v: Record): (r: Shortcuts)
    ensures Lookup(r, k) == Some(v)
    ensures forall j :: j != k ==> Lookup(r, j) == Lookup(s, j)
  {
    if s == [] then [Entry(k, v)]
    else if s[0].name == k then [Entry(k, v)] + s[1..]
    else [s[0]] + Put(s[1..], k, v)
  }

  /** `delete s[k]`: drops the entry named `k` and keeps the others in order. */
  function Remove(s: Shortcuts, k: string): (r: Shortcuts)
    ensures Lookup(r, k) == None
    ensures forall j :: j != k ==> Lookup(r, j) == Lookup(s, j)
    ensures k !in Names(s) ==> r == s
  {
    if s == [] then []
    else if s[0].name == k then Remove(s[1..], k)
    else [s[0]] + Remove(s[1..], k)
  }

  /** Assignment keeps names distinct. */
  lemma {:induction false} PutValid(s: Shortcuts, k: string, v: Record)
    requires Valid(s)
    ensures Valid(Put(s, k, v))
  {
    if s != [] && s[0].name != k {
      PutValid(s[1..], k, v);
      PutNames(s[1..], k, v);
    }
  }

  /** Assigning to a present key keeps the key order; a new key goes last. */
  lemma PutNames(s: Shortcuts, k: string, v: Record)
    ensures k in Names(s) ==> Names(Put(s, k, v)) == Names(s)
    ensures k !in Names(s) ==> Names(Put(s, k, v)) == Names(s) + [k]
  {
    if k in Names(s) {
      PutPresentNames(s, k, v);
    } else {
      PutNewNames(s, k, v);
    }
  }

  lemma {:induction false} PutPresentNames(s: Shortcuts, k: string, v: Record)
    requires k in Names(s)
    ensures Names(Put(s, k, v)) == Names(s)
  {
    assert Names(s) == [s[0].name] + Names(s[1..]);
    if s[0].name == k {
      NamesCons(Entry(k, v), s[1..]);
    } else {
      PutPresentNames(s[1..], k, v);
      NamesCons(s[0], Put(s[1..], k, v));
    }
  }

  lemma {:induction false} PutNewNames(s: Shortcuts, k: string, v: Record)
    requires k !in Names(s)
    ensures Names(Put(s, k, v)) == Names(s) + [k]
  {
    if s == [] {
      assert Put(s, k, v) == [Entry(k, v)];
    } else {
      var t := Put(s[1..], k, v);
      assert Put(s, k, v) == [s[0]] + t;
      PutNewNames(s[1..], k, v);
      NamesCons(s[0], t);
      NamesCons(s[0], s[1..]);
      assert [s[0]] + s[1..] == s;
      ConsSnoc(s[0].name, Names(s[1..]), k);
    }
  }

  lemma ConsSnoc(x: string, a: seq<string>, k: string)
    ensures [x] + (a + [k]) == ([x] + a) + [k]
  {
  }

  lemma NamesCons(e: Entry, t: Shortcuts)
    ensures Names([e] + t) == [e.name] + Names(t)
  {
    assert ([e] + t)[1..] == t;
  }

  /** Deletion keeps names distinct. */
  lemma {:induction false} RemoveValid(s: Shortcuts, k: string)
    requires Valid(s)
    ensures Valid(Remove(s, k))
  {
    if s != [] {
      RemoveValid(s[1..], k);
      if s[0].name != k {
        RemoveNames(s[1..], k);
        RemoveAllSubset(Names(s[1..]), k, s[0].name);
      }
    }
  }

  lemma {:induction false} RemoveAllSubset(ns: seq<string>, k: string, x: string)
    requires x !in ns
    ensures x !in RemoveAll(ns, k)
  {
    if ns != [] {
      RemoveAllSubset(ns[1..], k, x);
    }
  }

  /** Dropping a name that does not occur changes nothing. */
  lemma {:induction false} RemoveAllAbsent(ns: seq<string>, k: string)
    requires k !in ns
    ensures RemoveAll(ns, k) == ns
  {
    if ns != [] {
      RemoveAllAbsent(ns[1..], k);
      assert ns == [ns[0]] + ns[1..];
    }
  }

  /** Deletion keeps the other keys in their order. */
  lemma {:induction false} RemoveNames(s: Shortcuts, k: string)
    ensures Names(Remove(s, k)) == RemoveAll(Names(s), k)
  {
    if s != [] {
      RemoveNames(s[1..], k);
      assert Names(s) == [s[0].name] + Names(s[1..]);
    }
  }

  /** `ns` with every occurrence of `k` dropped. */
  function RemoveAll(ns: seq<string>, k: string): seq<string> {
    if ns == [] then []
    else if ns[0] == k then RemoveAll(ns[1..], k)
    else [ns[0]] + RemoveAll(ns[1..], k)
  }

  /** `{...a, ...b}`: the entries of `b`, in order, assigned into `a`. */
  function Merge(a: Shortcuts, b: Shortcuts): Shortcuts
    decreases |b|
  {
    if b == [] then a else Merge(Put(a, b[0].name, b[0].rec), b[1..])
  }

  /** Every key of `b` maps to its value in `b`; every other key keeps its value
      in `a`; the result has distinct names when `a` has. */
  lemma {:induction false} MergeSpec(a: Shortcuts, b: Shortcuts)
    requires Valid(b)
    ensures forall k :: Lookup(Merge(a, b), k) == if Has(b, k) then Lookup(b, k) else Lookup(a, k)
    ensures Valid(a) ==> Valid(Merge(a, b))
    decreases |b|
  {
    if b != [] {
      var a' := Put(a, b[0].name, b[0].rec);
      MergeSpec(a', b[1..]);
      if Valid(a) {
        PutValid(a, b[0].name, b[0].rec);
      }
    }
  }

  /** Two maps that agree on every lookup hold the same shortcuts. */
  ghost predicate SameContents(s: Shortcuts, t: Shortcuts) {
    forall k :: Lookup(s, k) == Lookup(t, k)
  }
}

=== FILE: text.dfy ===
/**
 String primitives used by the extension: ECMAScript white space, ASCII
 lower-casing, `trim`, `startsWith` and `includes`.
 */
module Text {

  /** The class `\s` of ECMAScript regular expressions, which is also the set of
      code points `String.prototype.trim` removes (WhiteSpace and LineTerminator). */
  predicate IsSpace(c: char) {
    var n := c as int;
    n == 0x09 || n == 0x0A || n == 0x0B || n == 0x0C || n == 0x0D || n == 0x20
    || n == 0xA0 || n == 0x1680 || (0x2000 <= n <= 0x200A) || n == 0x2028
    || n == 0x2029 || n == 0x202F || n == 0x205F || n == 0x3000 || n == 0xFEFF
  }

  /** The code points the regular-expression `.` does not match. */
  predicate IsLineTerminator(c: char) {
    var n := c as int;
    n == 0x0A || n == 0x0D || n == 0x2028 || n == 0x2029
  }

  predicate AllSpace(s: string) {
    forall i :: 0 <= i < |s| ==> IsSpace(s[i])
  }

  predicate NoLineTerminator(s: string) {
    forall i :: 0 <= i < |s| ==> !IsLineTerminator(s[i])
  }

  /** Lower-casing of one character, restricted to ASCII letters. */
  function LowerChar(c: char): char {
    if 'A' <= c <= 'Z' then (c as int + 32) as char else c
  }

  /** `toLowerCase`, character by character (ASCII letters only). */
  function Lower(s: string): (r: string)
    ensures |r| == |s|
    ensures forall i :: 0 <= i < |s| ==> r[i] == LowerChar(s[i])
  {
    seq(|s|, i requires 0 <= i < |s| => LowerChar(s[i]))
  }

  lemma LowerAppend(a: string, b: string)
    ensures Lower(a + b) == Lower(a) + Lower(b)
  {
  }

  lemma LowerSlice(s: string, i: nat, j: nat)
    requires i <= j <= |s|
    ensures Lower(s[i..j]) == Lower(s)[i..j]
  {
  }

  /** Slicing a suffix is slicing the whole. */
  lemma DropSlice(u: string, k: nat, i: nat, j: nat)
    requires i <= j && k + j <= |u|
    ensures u[k..][i..j] == u[k + i..k + j]
    ensures u[k..][..j] == u[k..k + j]
    ensures u[k..][i..] == u[k + i..]
  {
  }

  /** Slicing a prefix is slicing the whole. */
  lemma TakeSlice(u: string, j: nat, i: nat)
    requires i <= j <= |u|
    ensures u[..j][i..] == u[i..j]
  {
  }

  /** `s.startsWith(p)`. */
  predicate StartsWith(s: string, p: string) {
    |p| <= |s| && s[..|p|] == p
  }

  /** `s.includes(p)`: `p` occurs somewhere in `s`. */
  predicate Includes(s: string, p: string) {
    exists i :: 0 <= i <= |s| && StartsWith(s[i..], p)
  }

  lemma StartsWithIncludes(s: string, p: string)
    requires StartsWith(s, p)
    ensures Includes(s, p)
  {
    assert s[0..] == s;
  }

  /** An occurrence inside an occurrence is an occurrence. */
  lemma IncludesTransitive(s: string, w: string, p: string)
    requires Includes(s, w) && Includes(w, p)
    ensures Includes(s, p)
  {
    var i :| 0 <= i <= |s| && StartsWith(s[i..], w);
    var k :| 0 <= k <= |w| && StartsWith(w[k..], p);
    forall j | 0 <= j < |p| ensures s[i + k..][j] == p[j] {
      assert s[i + k..][j] == s[i..][..|w|][k + j];
      assert p[j] == w[k..][..|p|][j];
    }
    assert s[i + k..][..|p|] == p;
    assert StartsWith(s[i + k..], p);
  }

  /** A slice of `s` occurs in `s`. */
  lemma SliceIncluded(s: string, i: nat, j: nat)
    requires i <= j <= |s|
    ensures Includes(s, s[i..j])
  {
    assert StartsWith(s[i..], s[i..j]);
  }

  /** The empty string occurs in every string. */
  lemma EmptyIncluded(s: string)
    ensures Includes(s, [])
  {
    assert StartsWith(s[0..], []);
  }

  /** The first index at or after `i` that does not hold white space, or `|s|`. */
  function SpaceEnd(s: string, i: nat): (n: nat)
    requires i <= |s|
    ensures i <= n <= |s|
    ensures forall k :: i <= k < n ==> IsSpace(s[k])
    ensures n < |s| ==> !IsSpace(s[n])
    decreases |s| - i
  {
    if i < |s| && IsSpace(s[i]) then SpaceEnd(s, i + 1) else i
  }

  /** The index just past the last non-space before `j`, or 0. */
  function SpaceStart(s: string, j: nat): (n: nat)
    requires j <= |s|
    ensures n <= j
    ensures forall k :: n <= k < j ==> IsSpace(s[k])
    ensures 0 < n ==> !IsSpace(s[n - 1])
  {
    if 0 < j && IsSpace(s[j - 1]) then SpaceStart(s, j - 1) else j
  }

  /** Number of leading white space characters. */
  function LeadingSpace(s: string): (n: nat)
    ensures n <= |s| && AllSpace(s[..n]) && (n < |s| ==> !IsSpace(s[n]))
  {
    SpaceEnd(s, 0)
  }

  /** Length of `s` without its trailing white space. */
  function TrailingStart(s: string): (n: nat)
    ensures n <= |s| && AllSpace(s[n..]) && (0 < n ==> !IsSpace(s[n - 1]))
  {
    SpaceStart(s, |s|)
  }

  /** A white space run followed by a non-space (or by the end) is the leading
      white space. */
  lemma LeadingSpaceUnique(s: string, n: nat)
    requires n <= |s| && AllSpace(s[..n]) && (n < |s| ==> !IsSpace(s[n]))
    ensures LeadingSpace(s) == n
  {
  }

  /** A cut after a non-space (or at the start) with white space behind it is
      where the trailing white space starts. */
  lemma TrailingStartUnique(s: string, n: nat)
    requires n <= |s| && AllSpace(s[n..]) && (0 < n ==> !IsSpace(s[n - 1]))
    ensures TrailingStart(s) == n
  {
  }

  /** `s.trimStart()`: the suffix left after the leading white space. */
  function TrimStart(s: string): string {
    s[LeadingSpace(s)..]
  }

  /** `s.trimEnd()`: the prefix left before the trailing white space. */
  function TrimEnd(s: string): (r: string)
    ensures |r| <= |s| && r == s[..|r|]
    ensures r == [] || !IsSpace(r[|r| - 1])
    ensures AllSpace(s[|r|..])
  {
    s[..TrailingStart(s)]
  }

  /** `s.trim()`. */
  function Trim(s: string): string {
    TrimEnd(TrimStart(s))
  }

  /** No white space at either end. */
  predicate Trimmed(s: string) {
    s == [] || (!IsSpace(s[0]) && !IsSpace(s[|s| - 1]))
  }

  /** Trimming removes exactly the boundary white space: the result is the slice
      of the input between white space on both sides, and has none at its ends. */
  lemma TrimSpec(s: string)
    ensures Trimmed(Trim(s))
    ensures LeadingSpace(s) + |Trim(s)| <= |s|
    ensures Trim(s) == s[LeadingSpace(s)..LeadingSpace(s) + |Trim(s)|]
    ensures AllSpace(s[..LeadingSpace(s)]) && AllSpace(s[LeadingSpace(s) + |Trim(s)|..])
  {
    TrimTrimmed(s);
    var i := LeadingSpace(s);
    var a := TrimStart(s);
    PrefixOfSuffix(s, a, TrimEnd(a), i);
  }

  /** `r`, a prefix of the suffix `a` of `s` from `i`, is the slice of `s` at
      `i`; what follows it in `a` follows it in `s`. */
  lemma PrefixOfSuffix(s: string, a: string, r: string, i: nat)
    requires i <= |s| && a == s[i..] && |r| <= |a| && r == a[..|r|]
    ensures r == s[i..i + |r|]
    ensures AllSpace(a[|r|..]) ==> AllSpace(s[i + |r|..])
  {
    assert s[i + |r|..] == a[|r|..];
  }

  lemma TrimTrimmed(s: string)
    ensures Trimmed(Trim(s))
  {
    var a := TrimStart(s);
    var r := TrimEnd(a);
    if r != [] {
      assert r[0] == a[0] == s[LeadingSpace(s)];
    }
  }

  /** Trimming leaves a trimmed string alone, and nothing else. */
  lemma TrimmedFixpoint(s: string)
    ensures Trimmed(s) <==> Trim(s) == s
  {
    TrimTrimmed(s);
    if Trimmed(s) && s != [] {
      LeadingSpaceUnique(s, 0);
      assert TrimStart(s) == s;
      TrailingStartUnique(s, |s|);
      assert TrimEnd(s) == s;
    }
  }

  lemma TrimIdempotent(s: string)
    ensures Trim(Trim(s)) == Trim(s)
  {
    TrimTrimmed(s);
    TrimmedFixpoint(Trim(s));
  }

  /** Lower-casing changes no white space. */
  lemma LowerCharSpace(c: char)
    ensures IsSpace(LowerChar(c)) <==> IsSpace(c)
  {
  }

  /** Lower-casing keeps every character's white-space status. */
  lemma LowerAllSpace(s: string, i: nat, j: nat)
    requires i <= j <= |s|
    ensures AllSpace(Lower(s)[i..j]) <==> AllSpace(s[i..j])
  {
    forall k | i <= k < j
      ensures IsSpace(Lower(s)[k]) <==> IsSpace(s[k])
    {
      LowerCharSpace(s[k]);
    }
    assert forall k :: 0 <= k < j - i ==> Lower(s)[i..j][k] == Lower(s)[i + k] && s[i..j][k] == s[i + k];
  }

  lemma LowerTrimStart(s: string)
    ensures TrimStart(Lower(s)) == Lower(TrimStart(s))
  {
    var n := LeadingSpace(s);
    LowerAllSpace(s, 0, n);
    assert Lower(s)[..n] == Lower(s)[0..n] && s[..n] == s[0..n];
    if n < |s| {
      LowerCharSpace(s[n]);
    }
    LeadingSpaceUnique(Lower(s), n);
    LowerSlice(s, n, |s|);
    assert s[n..|s|] == s[n..];
  }

  lemma LowerTrimEnd(s: string)
    ensures TrimEnd(Lower(s)) == Lower(TrimEnd(s))
  {
    var n := TrailingStart(s);
    LowerAllSpace(s, n, |s|);
    assert Lower(s)[n..] == Lower(s)[n..|s|] && s[n..] == s[n..|s|];
    if 0 < n {
      LowerCharSpace(s[n - 1]);
    }
    TrailingStartUnique(Lower(s), n);
    LowerSlice(s, 0, n);
    assert s[0..n] == s[..n];
  }

  /** Lower-casing and trimming can be done in either order. */
  lemma LowerTrim(s: string)
    ensures Trim(Lower(s)) == Lower(Trim(s))
  {
    LowerTrimStart(s);
    LowerTrimEnd(TrimStart(s));
  }
}

=== FILE: tokens.dfy ===
/**
 Action tokens: the `content` of a delete, rename or save suggestion. When the
 user picks the suggestion, the omnibox hands the token back and the handler
 decodes it by prefix.
 */
module Tokens {
  import opened Results
  import opened Text

  const DeletePrefix: string := "__DELETE__:"
  const RenamePrefix: string := "__RENAME__:"
  const SavePrefix: string := "__SAVE__:"

  /** What a decoded token asks for. A rename token without a second field
      asks for nothing. */
  datatype Action = Delete(name: string) | Rename(oldName: string, newName: string)
                  | Save(name: string) | Ignore

  function EncodeDelete(name: string): string {
    DeletePrefix + name
  }

  function EncodeRename(oldName: string, newName: string): string {
    RenamePrefix + oldName + ":" + newName
  }

  function EncodeSave(name: string): string {
    SavePrefix + name
  }

  /** Position of the first `c` in `s`. */
  function IndexOf(s: string, c: char): (i: nat)
    requires c in s
    ensures i < |s| && s[i] == c && c !in s[..i]
  {
    if s[0] == c then 0 else assert c in s[1..]; 1 + IndexOf(s[1..], c)
  }

  /** `s.split(c)` for a one-character separator: the pieces between
      occurrences of `c`, with empty pieces kept. */
  function SplitOn(s: string, c: char): (parts: seq<string>)
    ensures |parts| >= 1
    decreases |s|
  {
    if c !in s then [s]
    else
      var i := IndexOf(s, c);
      [s[..i]] + SplitOn(s[i + 1..], c)
  }

  /** `parts.join(c)`. */
  function Join(parts: seq<string>, c: char): string {
    if |parts| == 0 then []
    else if |parts| == 1 then parts[0]
    else parts[0] + [c] + Join(parts[1..], c)
  }

  /** Splitting and joining again gives the input back; no piece holds `c`. */
  lemma {:induction false} JoinSplit(s: string, c: char)
    ensures Join(SplitOn(s, c), c) == s
    ensures forall k :: 0 <= k < |SplitOn(s, c)| ==> c !in SplitOn(s, c)[k]
    decreases |s|
  {
    if c in s {
      var i := IndexOf(s, c);
      var (a, b) := (s[..i], s[i + 1..]);
      var q := SplitOn(b, c);
      assert SplitOn(s, c) == [a] + q;
      JoinSplit(b, c);
      JoinCons(a, q, c);
      assert s == a + [c] + b;
    }
  }

  lemma JoinCons(a: string, q: seq<string>, c: char)
    requires |q| >= 1
    ensures Join([a] + q, c) == a + [c] + Join(q, c)
  {
    assert ([a] + q)[1..] == q;
  }

  /** The first piece is everything before the first `c`; joining the others
      gives everything after it. */
  lemma SplitFirst(s: string, c: char)
    requires c in s
    ensures |SplitOn(s, c)| >= 2
    ensures SplitOn(s, c)[0] == s[..IndexOf(s, c)]
    ensures Join(SplitOn(s, c)[1..], c) == s[IndexOf(s, c) + 1..]
  {
    var i := IndexOf(s, c);
    var b := s[i + 1..];
    SplitUnfold(s, c);
    JoinSplit(b, c);
    HeadTail(s[..i], SplitOn(b, c));
  }

  /** One step of `split`: the piece before the first `c`, then the split of the rest. */
  lemma SplitUnfold(s: string, c: char)
    requires c in s
    ensures SplitOn(s, c) == [s[..IndexOf(s, c)]] + SplitOn(s[IndexOf(s, c) + 1..], c)
  {
  }

  lemma HeadTail(a: string, q: seq<string>)
    ensures |[a] + q| == |q| + 1 && ([a] + q)[0] == a && ([a] + q)[1..] == q
  {
  }

  /** The two fields of a rename token's payload: split at every colon, the
      first piece is the old name and the rest, joined again, the new one. */
  function RenameFields(body: string): Action {
    var parts := SplitOn(body, ':');
    if |parts| >= 2 then Rename(Trim(parts[0]), Trim(Join(parts[1..], ':')))
    else Ignore
  }

  /** The token part of the selection handler: a delete, rename or save token
      decoded by its prefix, or `None` when the text is no token. The delete and
      rename payloads start after the 11 characters of their prefix, the save
      payload after 9. */
  function DecodeToken(text: string): Option<Action> {
    if StartsWith(text, DeletePrefix) then Some(Delete(Trim(text[11..])))
    else if StartsWith(text, RenamePrefix) then Some(RenameFields(text[11..]))
    else if StartsWith(text, SavePrefix) then Some(Save(Trim(text[9..])))
    else None
  }

  lemma DecodeRenameToken(body: string)
    ensures DecodeToken(RenamePrefix + body) == Some(RenameFields(body))
  {
    var t := RenamePrefix + body;
    assert t[..11] == RenamePrefix;
    assert !StartsWith(t, DeletePrefix) by { assert t[2] == 'R'; }
    assert t[11..] == body;
  }

  /** A rename token is split at its first colon after the prefix; without a
      colon it does nothing. */
  lemma RenameTokenSplitsAtFirstColon(body: string)
    ensures ':' in body ==> var i := IndexOf(body, ':');
              DecodeToken(RenamePrefix + body) == Some(Rename(Trim(body[..i]), Trim(body[i + 1..])))
    ensures ':' !in body ==> DecodeToken(RenamePrefix + body) == Some(Ignore)
  {
    DecodeRenameToken(body);
    if ':' in body {
      SplitFirst(body, ':');
    }
  }

  /** Deleting: the token gives back the name, if it has no boundary white space. */
  lemma DeleteTokenRoundTrip(name: string)
    requires Trimmed(name)
    ensures DecodeToken(EncodeDelete(name)) == Some(Delete(name))
  {
    assert EncodeDelete(name)[..11] == DeletePrefix;
    assert EncodeDelete(name)[11..] == name;
    TrimmedFixpoint(name);
  }

  /** Saving: the token gives back the name, if it has no boundary white space. */
  lemma SaveTokenRoundTrip(name: string)
    requires Trimmed(name)
    ensures DecodeToken(EncodeSave(name)) == Some(Save(name))
  {
    var t := EncodeSave(name);
    assert t[..9] == SavePrefix;
    assert !StartsWith(t, DeletePrefix) by { assert t[2] == 'S'; }
    assert !StartsWith(t, RenamePrefix) by { assert t[2] == 'S'; }
    assert t[9..] == name;
    TrimmedFixpoint(name);
  }

  /** The first colon of `o:n` is the one after `o` when `o` has none. */
  lemma FirstColonAfter(o: string, n: string)
    requires ':' !in o
    ensures IndexOf(o + ":" + n, ':') == |o|
  {
    var body := o + ":" + n;
    assert body[|o|] == ':' && body[..|o|] == o;
  }

  /** The payload `o:n` decodes to the trimmed fields `o` and `n`. */
  lemma RenameFieldsOf(o: string, n: string)
    requires ':' !in o
    ensures DecodeToken(EncodeRename(o, n)) == Some(Rename(Trim(o), Trim(n)))
  {
    var body := o + ":" + n;
    assert EncodeRename(o, n) == RenamePrefix + body;
    RenameTokenSplitsAtFirstColon(body);
    FirstColonAfter(o, n);
    assert body[..|o|] == o;
    assert body[|o| + 1..] == n;
  }

  /** Renaming: the token gives back both names when the old one holds no colon
      and neither has boundary white space; colons in the new name survive. */
  lemma RenameTokenRoundTrip(oldName: string, newName: string)
    requires ':' !in oldName && Trimmed(oldName) && Trimmed(newName)
    ensures DecodeToken(EncodeRename(oldName, newName)) == Some(Rename(oldName, newName))
  {
    RenameFieldsOf(oldName, newName);
    TrimmedFixpoint(oldName);
    TrimmedFixpoint(newName);
  }

  /** The rename token is ambiguous for an old name with a colon: the old name
      `a:b` renamed to `c` decodes as `a` renamed to `b:c`. */
  lemma RenameTokenColonInOldName()
    ensures DecodeToken(EncodeRename("a:b", "c")) == Some(Rename("a", "b:c"))
  {
    assert EncodeRename("a:b", "c") == EncodeRename("a", "b:c");
    assert Trimmed("a") && Trimmed("b:c");
    RenameTokenRoundTrip("a", "b:c");
  }
}

=== FILE: words.dfy ===
/**
 Word splitting of lower-cased shortcut names: `name.split(/[\s\-_]+/)` and the
 "some word starts with the query" test of the word-prefix tier.
 */
module Words {
  import opened Text

  /** The characters of the class `[\s\-_]`. */
  predicate IsSeparator(c: char) {
    IsSpace(c) || c == '-' || c == '_'
  }

  /** Index of the first separator at or after `k`, or `|s|` when there is none. */
  function SeparatorFrom(s: string, k: nat): (i: nat)
    requires k <= |s|
    ensures k <= i <= |s|
    ensures forall m :: k <= m < i ==> !IsSeparator(s[m])
    ensures i < |s| ==> IsSeparator(s[i])
    decreases |s| - k
  {
    if k == |s| || IsSeparator(s[k]) then k else SeparatorFrom(s, k + 1)
  }

  /** End of the run of separators that starts at `k`. */
  function RunEnd(s: string, k: nat): (j: nat)
    requires k <= |s|
    ensures k <= j <= |s|
    ensures forall m :: k <= m < j ==> IsSeparator(s[m])
    ensures j < |s| ==> !IsSeparator(s[j])
    decreases |s| - k
  {
    if k == |s| || !IsSeparator(s[k]) then k else RunEnd(s, k + 1)
  }

  /** The pieces between maximal runs of separators, as the ECMAScript `split`
      with a regular expression that matches only non-empty runs computes them.
      A leading or trailing run yields an empty first or last piece, and the
      empty string splits into one empty piece. */
  function SplitWords(s: string): (ws: seq<string>)
    ensures |ws| >= 1
    decreases |s|
  {
    var i := SeparatorFrom(s, 0);
    if i == |s| then [s]
    else
      var j := RunEnd(s, i);
      [s[..i]] + SplitWords(s[j..])
  }

  /** `words.some(word => word.startsWith(q))`. */
  predicate AnyWordStartsWith(ws: seq<string>, q: string) {
    exists k :: 0 <= k < |ws| && StartsWith(ws[k], q)
  }

  /** No word holds a separator. */
  predicate SeparatorFree(ws: seq<string>) {
    forall k, m :: 0 <= k < |ws| && 0 <= m < |ws[k]| ==> !IsSeparator(ws[k][m])
  }

  /** Every word occurs in `s`. */
  predicate AllIncluded(s: string, ws: seq<string>) {
    forall k :: 0 <= k < |ws| ==> Includes(s, ws[k])
  }

  /** Every piece of the split is a slice of the input. */
  lemma {:induction false} WordsIncluded(s: string)
    ensures AllIncluded(s, SplitWords(s))
    decreases |s|
  {
    var i := SeparatorFrom(s, 0);
    if i == |s| {
      SliceIncluded(s, 0, |s|);
      assert s[0..|s|] == s;
    } else {
      var j := RunEnd(s, i);
      var rest := s[j..];
      WordsIncluded(rest);
      SliceIncluded(s, 0, i);
      assert s[0..i] == s[..i];
      SliceIncluded(s, j, |s|);
      assert s[j..|s|] == rest;
      IncludedCons(s, s[..i], rest, SplitWords(rest));
    }
  }

  /** The words of a slice of `s`, after a word of `s`, are words of `s`. */
  lemma IncludedCons(s: string, w: string, rest: string, ws: seq<string>)
    requires Includes(s, w) && Includes(s, rest) && AllIncluded(rest, ws)
    ensures AllIncluded(s, [w] + ws)
  {
    forall k | 1 <= k < |[w] + ws|
      ensures Includes(s, ([w] + ws)[k])
    {
      assert ([w] + ws)[k] == ws[k - 1];
      IncludesTransitive(s, rest, ws[k - 1]);
    }
  }

  /** No piece of the split holds a separator. */
  lemma {:induction false} WordsSeparatorFree(s: string)
    ensures SeparatorFree(SplitWords(s))
    decreases |s|
  {
    var i := SeparatorFrom(s, 0);
    if i == |s| {
    } else {
      var j := RunEnd(s, i);
      WordsSeparatorFree(s[j..]);
      SeparatorFreeCons(s[..i], SplitWords(s[j..]));
    }
  }

  lemma SeparatorFreeCons(w: string, ws: seq<string>)
    requires forall m :: 0 <= m < |w| ==> !IsSeparator(w[m])
    requires SeparatorFree(ws)
    ensures SeparatorFree([w] + ws)
  {
    forall k, m | 1 <= k < |[w] + ws| && 0 <= m < |([w] + ws)[k]|
      ensures !IsSeparator(([w] + ws)[k][m])
    {
      assert ([w] + ws)[k] == ws[k - 1];
    }
  }

  /** A name whose word starts with the query contains the query. */
  lemma WordPrefixIncludes(s: string, q: string)
    requires AnyWordStartsWith(SplitWords(s), q)
    ensures Includes(s, q)
  {
    var k :| 0 <= k < |SplitWords(s)| && StartsWith(SplitWords(s)[k], q);
    WordsIncluded(s);
    StartsWithIncludes(SplitWords(s)[k], q);
    IncludesTransitive(s, SplitWords(s)[k], q);
  }

  /** Every name has a word starting with the empty query. */
  lemma EmptyQueryWordPrefix(s: string)
    ensures AnyWordStartsWith(SplitWords(s), [])
  {
    assert StartsWith(SplitWords(s)[0], []);
  }

  /** A query holding a separator is never a word prefix: words hold none. */
  lemma SeparatorQueryNoWordPrefix(s: string, q: string, m: nat)
    requires m < |q| && IsSeparator(q[m])
    ensures !AnyWordStartsWith(SplitWords(s), q)
  {
    WordsSeparatorFree(s);
    var ws := SplitWords(s);
    forall k | 0 <= k < |ws|
      ensures !StartsWith(ws[k], q)
    {
      if |q| <= |ws[k]| {
        assert ws[k][..|q|][m] == ws[k][m];
      }
    }
  }

  /** `q` holds no separator. */
  predicate NoSeparator(q: string) {
    forall m :: 0 <= m < |q| ==> !IsSeparator(q[m])
  }

  /** `q` occurs in `s` at `p`, where a word starts: at the head of `s` or right
      after a separator. */
  predicate AtWordStart(s: string, q: string, p: nat) {
    p <= |s| && (p == 0 || IsSeparator(s[p - 1])) && StartsWith(s[p..], q)
  }

  /** The word-prefix tier in terms of the name itself: a non-empty query is a
      prefix of some word exactly when it holds no separator and occurs in the
      name where a word starts. */
  lemma WordPrefixIff(s: string, q: string)
    requires q != []
    ensures AnyWordStartsWith(SplitWords(s), q) <==> NoSeparator(q) && exists p: nat :: AtWordStart(s, q, p)
  {
    if AnyWordStartsWith(SplitWords(s), q) {
      forall m | 0 <= m < |q| ensures !IsSeparator(q[m]) {
        if IsSeparator(q[m]) { SeparatorQueryNoWordPrefix(s, q, m); }
      }
      WordStartOfWord(s, q);
    }
    if NoSeparator(q) && exists p: nat :: AtWordStart(s, q, p) {
      var p: nat :| AtWordStart(s, q, p);
      WordStartFound(s, q, p);
    }
  }

  /** A separator-free query found where a word starts is a prefix of that word. */
  lemma {:induction false} WordStartFound(s: string, q: string, p: nat)
    requires q != [] && NoSeparator(q) && AtWordStart(s, q, p)
    ensures AnyWordStartsWith(SplitWords(s), q)
    decreases |s|
  {
    if p == 0 {
      FirstWordStarts(s, q);
    } else {
      assert s[p] == q[0];
      var j := SplitBefore(s, p);
      ShiftWordStart(s, q, j, p - j);
      WordStartFound(s[j..], q, p - j);
      AnyWordCons(s[..SeparatorFrom(s, 0)], SplitWords(s[j..]), q);
    }
  }

  /** A separator-free prefix of `s` is a prefix of its first word. */
  lemma FirstWordStarts(s: string, q: string)
    requires NoSeparator(q) && StartsWith(s, q)
    ensures StartsWith(SplitWords(s)[0], q)
  {
    var i := SeparatorFrom(s, 0);
    assert |q| <= i;
    if i < |s| {
      assert s[..i][..|q|] == s[..|q|];
    }
  }

  /** A word start after the first separator run lies in the text after that run. */
  lemma SplitBefore(s: string, p: nat) returns (j: nat)
    requires 0 < p < |s| && IsSeparator(s[p - 1]) && !IsSeparator(s[p])
    ensures SeparatorFrom(s, 0) < |s| && 0 < j <= p && IsSeparator(s[j - 1])
    ensures SplitWords(s) == [s[..SeparatorFrom(s, 0)]] + SplitWords(s[j..])
  {
    assert SeparatorFrom(s, 0) < p;
    j := SplitStep(s);
  }

  lemma AnyWordCons(w: string, ws: seq<string>, q: string)
    requires AnyWordStartsWith(ws, q)
    ensures AnyWordStartsWith([w] + ws, q)
  {
    var k :| 0 <= k < |ws| && StartsWith(ws[k], q);
    assert ([w] + ws)[k + 1] == ws[k];
  }

  /** A word starting with the query sits where a word of the name starts. */
  lemma {:induction false} WordStartOfWord(s: string, q: string)
    requires q != [] && AnyWordStartsWith(SplitWords(s), q)
    ensures exists p: nat :: AtWordStart(s, q, p)
    decreases |s|
  {
    var k :| 0 <= k < |SplitWords(s)| && StartsWith(SplitWords(s)[k], q);
    if k == 0 {
      FirstWordIsPrefix(s, q);
    } else {
      var j := SplitStep(s);
      var rest := s[j..];
      assert SplitWords(rest)[k - 1] == SplitWords(s)[k];
      WordStartOfWord(rest, q);
      var p': nat :| AtWordStart(rest, q, p');
      ShiftWordStart(s, q, j, p');
    }
  }

  /** A query the first word starts with is found at the start of `s`. */
  lemma FirstWordIsPrefix(s: string, q: string)
    requires StartsWith(SplitWords(s)[0], q)
    ensures AtWordStart(s, q, 0)
  {
    var i := SeparatorFrom(s, 0);
    if i < |s| { assert s[..i][..|q|] == s[..|q|]; }
    assert s[0..] == s;
  }

  /** One step of the split when `s` holds a separator: the first word ends at
      the first separator and the rest of the words are those of the text after
      the separator run, which ends at `j`. */
  lemma SplitStep(s: string) returns (j: nat)
    requires SeparatorFrom(s, 0) < |s|
    ensures SeparatorFrom(s, 0) < j <= |s| && j == RunEnd(s, SeparatorFrom(s, 0))
    ensures SplitWords(s) == [s[..SeparatorFrom(s, 0)]] + SplitWords(s[j..])
    ensures forall m :: 0 <= m < SeparatorFrom(s, 0) ==> !IsSeparator(s[m])
    ensures forall m :: SeparatorFrom(s, 0) <= m < j ==> IsSeparator(s[m])
  {
    j := RunEnd(s, SeparatorFrom(s, 0));
  }

  /** A word start in the text after position `j`, where a separator run ends,
      is a word start in `s`; and it is the other way round for one at or after `j`. */
  lemma ShiftWordStart(s: string, q: string, j: nat, p: nat)
    requires 0 < j <= |s| && IsSeparator(s[j - 1])
    ensures AtWordStart(s[j..], q, p) <==> j + p <= |s| && AtWordStart(s, q, j + p)
  {
    if j + p <= |s| {
      assert s[j + p..] == s[j..][p..];
      assert p > 0 ==> s[j + p - 1] == s[j..][p - 1];
    }
  }
}
